=== FILE: README.md ===
# ai-commit: a Dafny model of the commit workflow

ai-commit is a command-line helper that asks a language-model endpoint for a
conventional commit message describing the staged git diff, then commits it and
optionally pushes. This project models its Python core:

- `main.py`: the argument scan, the key check, the staging loop, `truncate_diff`,
  the two prompts, the commit and the push;
- `client.py`: `Message`, `LiteLLMClient` and its request and answer cleaning;
- `config.py`: `load_config`, the default file overridden by an optional user file.

The model is written over pure values. Everything outside the process comes from a
`World` of three streams, consumed front first:

- the results of git commands (exit code and standard output);
- the lines the user types (`None` for an interrupt or end of input);
- the outcomes of the HTTP POST.

`Workflow.Step` advances the state machine of `main()` by exactly one external
call and logs that call, with its outcome, as one `Event`. `Workflow.Run` repeats
it until the program exits or the stream it needs is empty. An empty stream gives
exit `None`; this is how the model can represent the staging loop, which never
terminates in some worlds.

Modules:

| module | contents |
|---|---|
| `Wrappers` | `Option` |
| `Text` | Python's `strip`, `lower`, `split('\n')` and `'\n'.join` on `seq<char>` |
| `Json` | JSON values |
| `Truncate` | `truncate_diff`, with a reference definition of where it cuts |
| `Config` | `load_config` over the outcome of reading each file |
| `Client` | messages, headers, payload, `chat_complete`, `single_question` |
| `Cli` | the argument scan |
| `Workflow` | the state machine of `main()` and `Execute` |
| `WorkflowProofs` | the trace invariant that every run keeps |
| `WorkflowScenarios` | particular runs that show the program's quirks |

Behaviours of the code worth knowing, each proved or stated by the member named:

- `answer.strip().strip('"')` removes every leading and trailing quote, not just
  one enclosing pair (client.py:48; `Client.CleanAnswerStripsEveryQuote`).
- The request body holds only `model` and `messages`; nothing else is sent
  (client.py:31-34; `Client.Payload`).
- The endpoint is the URL fixed in the constructor; nothing in the environment or
  the configuration changes it (client.py:21; `Client.NewClient`).
- `-t` is parsed and never acted on, although the help text says "Auto create tag"
  (main.py:28, main.py:139-140). `get_current_tag` and `create_tag` are never
  called (`WorkflowScenarios.AutoTagIsInert`).
- `is_dirty` looks only at the exit code of `git status --porcelain`, so a clean
  tree whose status command succeeds counts as dirty (main.py:46-49;
  `WorkflowScenarios.StatusOutputIgnored`).
- On such a tree the loop stages nothing and comes back to the dirty check. With
  `-a` it asks nothing and never ends (main.py:174-186;
  `WorkflowScenarios.StagingLoopHasNoBound`).
- Every transport error and every HTTP error status, a 400 included, is the same
  failure: the completion answers `None` and the run exits 1 (client.py:42,
  client.py:49-51, main.py:201-204; `Client.ChatComplete`).
- The diff is fetched before the staging prompt, so a declined prompt follows one
  `git diff --cached` call (main.py:179-190;
  `WorkflowScenarios.DeclinedStagingExitsZero`).
- When the default configuration file is missing or is not valid JSON,
  `load_config` returns `{}` and the user file is not read at all (config.py:15-20;
  `Config.LoadConfig`).

## Model

| member | source | states |
|---|---|---|
| Text.StripIsSlice | main.py:44 | `strip` keeps one contiguous slice of the text and removes only characters of the set around it; the slice neither starts nor ends with one of them |
| Text.StripIdempotent | main.py:99 | stripping twice is stripping once |
| Text.StripKeepsTrimmed | main.py:99 | a text with no strippable character at either end is unchanged |
| Text.Lower | main.py:99 | the ASCII `Lower` keeps the length, and the only texts it turns into `y` are `y` and `Y`, as with Python's `lower()` |
| Text.JoinSplit | main.py:114 | `'\n'.join(s.split('\n')) == s`: splitting on newlines loses nothing |
| Text.SplitHasNoNewlines | main.py:114 | no piece of `split('\n')` contains a newline |
| Text.LineEndIsFirstNewline | main.py:114 | the split boundary is the first newline |
| Truncate.TruncateDiffIsCutPlusMarker | main.py:103-125 | a diff within `max_length` comes back unchanged; a longer one becomes its first `Cut` characters plus the fixed marker, where `Cut` is the independent definition "up to the last newline below `max_length - 100`" |
| Truncate.TruncatedShape | main.py:113-125 | the kept text is a prefix ending at a line boundary, its line costs fit `max_length - 100`, and no later line boundary would also fit |
| Truncate.CutIsCut | main.py:118-122 | the reference cut is line-aligned, within budget and maximal |
| Truncate.CutUnique | main.py:118-122 | those three properties determine the cut uniquely |
| Truncate.LastNewlineBelowIsLast | main.py:118-122 | the reference search finds the last newline below its bound |
| Truncate.KeptPrefix | main.py:113-122 | the line loop keeps exactly a prefix that ends at a newline or at the end, within budget, with no later line that would fit |
| Truncate.TruncateDiffFits | main.py:110-125 | with `max_length` at least the marker's 39 characters, the result never exceeds `max_length` |
| Truncate.TruncateDiffSmallLimit | main.py:119 | with `max_length <= 100` an oversized diff becomes the bare marker |
| Truncate.TruncateDiffIdempotent | main.py:103-125 | truncating a truncated diff again with the same limit changes nothing |
| Config.LoadConfig | config.py:5-31 | no usable default file gives `{}`; otherwise the default map, with every key of a parsed user file overriding it and all other default keys kept |
| Config.LoadConfigIsLayeredLookup | config.py:15-29 | the merged map answers every key as the layered lookup does: user setting, else default setting, else absent |
| Workflow.DiffLimitLayered | main.py:106-108 | when the default file parsed: the user file's `max_diff_length`, else the default file's, else 6000; when it is missing or malformed, 6000 whatever the user file says |
| Client.ToDict | client.py:10-14 | `to_dict` has exactly the keys `role` and `content`, holding the message's fields |
| Client.ToDictRoundTrip | client.py:10-14 | the message can be read back from its dictionary |
| Client.NewClient | client.py:17-21 | a new client starts at 0 tokens with the given key and model and the fixed endpoint |
| Client.Headers | client.py:25-29 | exactly three headers, the key sent as a bearer token |
| Client.Payload | client.py:31-34 | the body has exactly the keys `model` and `messages`, the model name, and every message in order |
| Client.PayloadRoundTrip | client.py:31-34 | the body can be read back into exactly the model and the conversation |
| Client.ReadMessagesInverts | client.py:33 | the list of message objects reads back as the original messages |
| Client.ChatComplete | client.py:23-51 | posts to the endpoint with the key's headers and a body carrying the model and the conversation; a failed request leaves the client unchanged and answers `None`; a reply adds its reported usage (0 when absent) and answers its cleaned content, which has no quote at either end |
| Client.CleanAnswerIsSlice | client.py:47-48 | the answer is one contiguous piece of the content with only whitespace and quotes removed around it |
| Client.CleanAnswerKeepsPlain | client.py:48 | content with no surrounding whitespace or quotes comes back exactly as sent |
| Client.CleanAnswerStripsEveryQuote | client.py:48 | `" ""fix""\n"` becomes `fix`: all enclosing quotes go |
| Client.CleanAnswerUnquotes | client.py:48 | `"feat(x): add y"` in quotes becomes `feat(x): add y` |
| Client.SingleQuestion | client.py:53-56 | `single_question` sends exactly one user turn holding the question |
| Cli.ParseArgsMeaning | main.py:133-142 | help is shown exactly when some argument is `-h` or `--help`, wherever it stands; otherwise each switch is on exactly when one of its spellings occurs, and other arguments are ignored |
| Cli.ParseFromSets | main.py:133-142 | the same, for a scan that starts from switches already set |
| Cli.ParseFromAppend | main.py:133-142 | scanning one more argument continues from where the scan stopped |
| Workflow.AgreesMeaning | main.py:96-101 | an answer is a yes exactly when, stripped, it is `y` or `Y`; an interrupt is a no |
| Workflow.Step | main.py:174-229 | each step makes exactly one external call, so the world shrinks by exactly one item; what the steps do is stated by the `WorkflowProofs` rows |
| WorkflowProofs.ExecuteGuarantees | main.py:127-229 | `-h` exits 0 and a missing or empty key exits 1, both with no call made; otherwise the run keeps `OutcomeOk` (below) |
| WorkflowProofs.RunKeepsInv | main.py:174-229 | from any state satisfying the invariant, the outcome of the run satisfies `OutcomeOk`: the trace starts with `git status`; the endpoint is called at most once, right after a non-empty diff, with exactly the system prompt and that diff truncated; a commit carries the cleaned answer unchanged and, without `-a`, follows a "y"; a stage follows an empty diff (`-a`) or a "y"; a push needs `-p` and follows a successful commit; the run exits right after the first stopping event, with 1 exactly for failures; the token total is the sum of the reported usages |
| WorkflowProofs.StepKeepsInv | main.py:174-229 | every step keeps the invariant |
| WorkflowProofs.StepLoop | main.py:175-193 | the dirty check, the diff and the stage keep the invariant |
| WorkflowProofs.StepAsk | main.py:188-211 | both prompts keep the invariant: the staging prompt (lines 188-190) and the accept prompt (lines 208-211) |
| WorkflowProofs.StepGenerating | main.py:196-204 | the completion step keeps the invariant: it sends the system prompt and the truncated diff, and exits 1 on no or empty answer |
| WorkflowProofs.StepFinish | main.py:213-229 | the commit and the push keep the invariant |
| WorkflowProofs.AppendKeepsOrder | main.py:174-229 | appending an allowed event keeps every ordering guarantee of the trace |
| WorkflowProofs.Extend | main.py:174-229 | an allowed event, the matching next phase and the updated token count keep the invariant |
| WorkflowProofs.TokensAppend | client.py:45 | the usage of a trace grows by what its last reply reports |
| WorkflowScenarios.CleanTreeExitsAtOnce | main.py:175-177 | a failing `git status` ends the run with 0 after that one call |
| WorkflowScenarios.StatusOutputIgnored | main.py:46-49 | at every dirty check, reached from any trace, what `git status --porcelain` prints has no effect on the rest of the run |
| WorkflowScenarios.DirtyCheckIgnoresOutput | main.py:46-49 | the output of the first `git status` call has no effect on the whole run |
| WorkflowScenarios.DeclinedStagingExitsZero | main.py:179-190 | without `-a`, an empty diff and a declined prompt end the run with 0 before anything is staged |
| WorkflowScenarios.AutoTagIsInert | main.py:139-140 | adding `-t` to the arguments changes nothing about the run |
| WorkflowScenarios.RunIgnoresAutoTag | main.py:174-229 | no step reads the tag switch |
| WorkflowScenarios.SpinRound | main.py:174-186 | with `-a`, a successful status (any output), a diff that failed or came back empty, and a successful stage (any output) bring the run back to the dirty check |
| WorkflowScenarios.SpinStatusDiff | main.py:175-183 | with `-a`, a successful status and a failed or empty diff lead to staging |
| WorkflowScenarios.SpinStatus | main.py:46-49 | a successful status, whatever it prints, moves on to the diff |
| WorkflowScenarios.SpinDiff | main.py:59-65 | with `-a`, a failed diff goes to staging exactly like an empty one |
| WorkflowScenarios.SpinAdd | main.py:51-57 | a successful `git add -A`, whatever it prints, returns to the dirty check |
| WorkflowScenarios.StagingLoopCanSpin | main.py:174-186 | with `-a`, `k` rounds in which status, diff and stage all succeed with empty output (a clean tree) leave the run back at the dirty check with nothing committed |
| WorkflowScenarios.IterateRounds | main.py:174-186 | a run that returns to its start after one clean-tree round returns after any number of them |
| WorkflowScenarios.StagingLoopHasNoBound | main.py:174-186 | for every `k` there is a world in which the run makes `3k` calls and has not exited |
| WorkflowScenarios.AfterStatus | main.py:179-181 | any diff call whose stripped output is non-empty leads to the completion request for exactly that diff |
| WorkflowScenarios.GenerateAuto | main.py:201-214 | with `-a`, any reply whose cleaned answer is non-empty leads straight to a commit of exactly that answer, with no prompt |
| WorkflowScenarios.CommitFinal | main.py:213-226 | without `-p`, a successful commit, whatever git prints, ends the run with 0 and no further call |
| WorkflowScenarios.CommitThenPush | main.py:213-229 | with `-p`, a successful commit is followed by exactly one `git push`, and the run then exits 1 if the push failed and 0 if it succeeded |
| WorkflowScenarios.DiffThenAsk | main.py:179-188 | without `-a`, a diff call that failed or came back empty leads to the staging prompt |
| WorkflowScenarios.StageAccepted | main.py:188-193 | a "y" to the staging prompt leads to `git add -A` |
| WorkflowScenarios.GenerateInteractive | main.py:201-209 | without `-a`, any reply whose cleaned answer is non-empty leads to the accept prompt for exactly that answer |
| WorkflowScenarios.AcceptThenCommit | main.py:209-213 | a "y" to the accept prompt leads to a commit of exactly the proposed message |
| WorkflowScenarios.AutoCommitScenario | main.py:174-214 | with `-a`, a quoted reply `"feat(x): add y"` after one stage round commits exactly `feat(x): add y`, exits 0 and counts the reported 5 tokens |

## Left out

- Running git: `run_git_command` is replaced by the git stream of the world. Its
  stripping of standard output is kept. The model reads only exit codes and output;
  standard error is printed by the source and is not modelled.
- Console output: colours, the help text, the error and success messages, the random
  success line and the printed token total are output only.
- `load_dotenv` and `os.getenv`: the three variables are inputs of `Invocation`.
  The long default system prompt is taken as given with the rest of the prompt.
- File access in `load_config`: reading a file is replaced by its outcome (missing,
  malformed JSON, or a JSON object). I/O errors other than a missing default file
  make the source raise and are not modelled.
- Config.LoadConfig: a file holding JSON other than an object is not modelled. For
  the user file, `config.update` accepts any sequence of key/value pairs: an empty
  list or an empty string changes nothing, and a list such as
  `[["max_diff_length", 50]]` overrides keys. Any sequence of two-element items is
  accepted, two-character strings included (`["ab"]` sets `a` to `b`); other values
  make it raise. A default
  file that is not an object makes the later `update` or `get` raise.
- Workflow.DiffLimitLayered: a `max_diff_length` that is neither an integer nor a
  boolean becomes 6000. The source uses a float limit as it is, because the
  comparison and the subtraction in `truncate_diff` accept floats; floats are not
  part of the JSON model. A string, list, object or `null` makes the source raise
  `TypeError` at the first comparison.
- The HTTP transport: `requests.post`, `raise_for_status` and JSON decoding become one
  `Reply`. Every `RequestException` is `RequestFailed`.
- A reply body without `choices[0].message.content` (`KeyError`), or with a `usage`
  that is not an object (`AttributeError`), makes the source raise inside its `try`
  block. The error escapes because the `except` clause catches only
  `RequestException`. When only the content is missing, the reported usage has
  already been added to the token total. The model's `Reply` always has content.
- Text.Lower: lower-cases ASCII letters only. The model compares its result only with
  `"y"`, and in Python too only `y` and `Y` lowercase to `y`.
- Termination of the staging loop: the source has no bound. The model stops when the
  world runs dry, and `StagingLoopHasNoBound` shows that no bound exists.
- `get_current_tag` and `create_tag`: never called by `main()`, so nothing calls them
  in the model.
- `show_help`, `print_success` and `print_error`: output only.
- main.go is not part of this model. It is a separate Go version of the same tool.

=== FILE: cli.dfy ===
/** The argument scan at the top of `main()` in main.py. */
module Cli {

  /** The three switches; `autoTag` is recorded but nothing reads it. */
  datatype Flags = Flags(autoCommit: bool, autoTag: bool, autoPush: bool)

  /** Either the scan reached `-h`/`--help` (help is shown, exit 0) or it finished. */
  datatype Parsed = ShowHelp | Proceed(flags: Flags)

  predicate IsHelp(arg: string) { arg == "-h" || arg == "--help" }
  predicate IsAutoCommit(arg: string) { arg == "-a" || arg == "--auto-commit" }
  predicate IsAutoTag(arg: string) { arg == "-t" || arg == "--auto-tag" }
  predicate IsAutoPush(arg: string) { arg == "-p" || arg == "--auto-push" }

  /** The scan, continuing from the switches `f` already set. Unknown arguments fall
      through every test and change nothing. */
  function ParseFrom(args: seq<string>, f: Flags): Parsed
    decreases |args|
  {
    if |args| == 0 then Proceed(f)
    else if IsHelp(args[0]) then ShowHelp
    else
      var f' :=
        if IsAutoCommit(args[0]) then f.(autoCommit := true)
        else if IsAutoTag(args[0]) then f.(autoTag := true)
        else if IsAutoPush(args[0]) then f.(autoPush := true)
        else f;
      ParseFrom(args[1..], f')
  }

  /** The scan of `sys.argv[1:]`, starting with every switch off. */
  function ParseArgs(args: seq<string>): Parsed {
    ParseFrom(args, Flags(false, false, false))
  }

  lemma {:induction false} ParseFromSets(args: seq<string>, f: Flags)
    ensures ParseFrom(args, f).ShowHelp? <==> exists i :: 0 <= i < |args| && IsHelp(args[i])
    ensures ParseFrom(args, f).Proceed? ==>
      var g := ParseFrom(args, f).flags;
      && (g.autoCommit <==> f.autoCommit || exists i :: 0 <= i < |args| && IsAutoCommit(args[i]))
      && (g.autoTag <==> f.autoTag || exists i :: 0 <= i < |args| && IsAutoTag(args[i]))
      && (g.autoPush <==> f.autoPush || exists i :: 0 <= i < |args| && IsAutoPush(args[i]))
    decreases |args|
  {
    if |args| > 0 && !IsHelp(args[0]) {
      var a := args[0];
      var f' :=
        if IsAutoCommit(a) then f.(autoCommit := true)
        else if IsAutoTag(a) then f.(autoTag := true)
        else if IsAutoPush(a) then f.(autoPush := true)
        else f;
      ParseFromSets(args[1..], f');
      assert forall i :: 0 < i < |args| ==> args[i] == args[1..][i - 1];
      assert forall i :: 0 <= i < |args| - 1 ==> args[1..][i] == args[i + 1];
    }
  }

  /** Help is shown exactly when some argument is `-h` or `--help`, wherever it
      stands; otherwise each switch is on exactly when one of its two spellings
      occurs, and every other argument is ignored. */
  lemma ParseArgsMeaning(args: seq<string>)
    ensures ParseArgs(args).ShowHelp? <==> exists i :: 0 <= i < |args| && IsHelp(args[i])
    ensures ParseArgs(args).Proceed? ==>
      var g := ParseArgs(args).flags;
      && (g.autoCommit <==> exists i :: 0 <= i < |args| && IsAutoCommit(args[i]))
      && (g.autoTag <==> exists i :: 0 <= i < |args| && IsAutoTag(args[i]))
      && (g.autoPush <==> exists i :: 0 <= i < |args| && IsAutoPush(args[i]))
  {
    ParseFromSets(args, Flags(false, false, false));
  }

  /** Scanning one more argument continues from where the scan stopped. */
  lemma {:induction false} ParseFromAppend(args: seq<string>, f: Flags, arg: string)
    ensures ParseFrom(args + [arg], f) ==
      match ParseFrom(args, f)
      case ShowHelp => ShowHelp
      case Proceed(g) => ParseFrom([arg], g)
    decreases |args|
  {
    if |args| > 0 {
      assert (args + [arg])[1..] == args[1..] + [arg];
      var a := args[0];
      var f' :=
        if IsAutoCommit(a) then f.(autoCommit := true)
        else if IsAutoTag(a) then f.(autoTag := true)
        else if IsAutoPush(a) then f.(autoPush := true)
        else f;
      ParseFromAppend(args[1..], f', arg);
    }
  }
}

=== FILE: client.dfy ===
/** client.py: `Message`, and the request/response logic of `LiteLLMClient`. The
    HTTP POST itself is outside the model: its outcome arrives as a `Reply`. */
module Client {
  import opened Wrappers
  import opened Text
  import opened Json

  /** One turn of a conversation. */
  datatype Message = Message(role: string, content: string)

  /** `Message.to_dict`: exactly the two keys `role` and `content`, values unchanged. */
  function ToDict(m: Message): (d: map<string, string>)
    ensures d.Keys == {"role", "content"}
    ensures d["role"] == m.role && d["content"] == m.content
  {
    map["role" := m.role, "content" := m.content]
  }

  /** Reads a message back from its dictionary form. */
  function FromDict(d: map<string, string>): Option<Message> {
    if "role" in d && "content" in d then Some(Message(d["role"], d["content"])) else None
  }

  /** A dictionary of strings as a JSON object. */
  function ToJson(d: map<string, string>): Value {
    Object(map k | k in d :: String(d[k]))
  }

  /** `to_dict` loses nothing: the message can be read back. */
  lemma ToDictRoundTrip(m: Message)
    ensures FromDict(ToDict(m)) == Some(m)
  {
  }

  /** The completion endpoint every request goes to. */
  const Endpoint := "https://litellm.shared-services.adb.adi.tech/v1/chat/completions"

  /** The client's state: credentials, model, and the running token total. */
  datatype Client = Client(apiKey: string, model: string, totalTokens: int, endpoint: string)

  /** `LiteLLMClient.__init__`. */
  function NewClient(apiKey: string, model: string): (c: Client)
    ensures c.totalTokens == 0
    ensures c.apiKey == apiKey && c.model == model && c.endpoint == Endpoint
  {
    Client(apiKey, model, 0, Endpoint)
  }

  /** An HTTP POST with a JSON body. */
  datatype Request = Request(url: string, headers: map<string, string>, body: map<string, Value>)

  /** The three headers every request carries; the key goes in as a bearer token. */
  function Headers(apiKey: string): (h: map<string, string>)
    ensures h.Keys == {"Content-Type", "Authorization", "HTTP-Referer"}
    ensures h["Authorization"] == "Bearer " + apiKey
  {
    map["Content-Type" := "application/json",
        "Authorization" := "Bearer " + apiKey,
        "HTTP-Referer" := "ai-commit-python"]
  }

  /** The JSON list of messages, in order. */
  function MessagesJson(messages: seq<Message>): (items: seq<Value>)
    ensures |items| == |messages|
    ensures forall i :: 0 <= i < |messages| ==> items[i] == ToJson(ToDict(messages[i]))
  {
    seq(|messages|, i requires 0 <= i < |messages| => ToJson(ToDict(messages[i])))
  }

  /** The request body: the model and the messages, and nothing else (no token
      limit, temperature or streaming flag is sent). */
  function Payload(model: string, messages: seq<Message>): (p: map<string, Value>)
    ensures p.Keys == {"model", "messages"}
    ensures p["model"] == String(model)
    ensures p["messages"].Array? && |p["messages"].items| == |messages|
    ensures forall i :: 0 <= i < |messages| ==> p["messages"].items[i] == ToJson(ToDict(messages[i]))
  {
    map["model" := String(model), "messages" := Array(MessagesJson(messages))]
  }

  /** Reads one message back from its JSON object. */
  function ReadMessage(v: Value): Option<Message> {
    if v.Object? && "role" in v.fields && "content" in v.fields
       && v.fields["role"].String? && v.fields["content"].String?
    then Some(Message(v.fields["role"].s, v.fields["content"].s))
    else None
  }

  function ReadMessages(items: seq<Value>): Option<seq<Message>>
    decreases |items|
  {
    if |items| == 0 then Some([])
    else match (ReadMessage(items[0]), ReadMessages(items[1..]))
      case (Some(m), Some(ms)) => Some([m] + ms)
      case _ => None
  }

  /** Reads a request body back into the model name and the conversation. */
  function ReadPayload(p: map<string, Value>): Option<(string, seq<Message>)> {
    if p.Keys == {"model", "messages"} && p["model"].String? && p["messages"].Array? then
      match ReadMessages(p["messages"].items)
      case Some(ms) => Some((p["model"].s, ms))
      case None => None
    else None
  }

  lemma {:induction false} ReadMessagesInverts(messages: seq<Message>)
    ensures ReadMessages(MessagesJson(messages)) == Some(messages)
    decreases |messages|
  {
    if |messages| > 0 {
      var items := MessagesJson(messages);
      var m := messages[0];
      assert items[0] == ToJson(ToDict(m));
      assert ReadMessage(items[0]) == Some(m);
      assert items[1..] == MessagesJson(messages[1..]);
      ReadMessagesInverts(messages[1..]);
      assert [m] + messages[1..] == messages;
    }
  }

  /** The payload carries the model and the whole conversation, in order: it can be
      read back exactly. */
  lemma PayloadRoundTrip(model: string, messages: seq<Message>)
    ensures ReadPayload(Payload(model, messages)) == Some((model, messages))
  {
    ReadMessagesInverts(messages);
  }

  /** What `chat_complete` posts for a conversation. */
  function RequestFor(c: Client, messages: seq<Message>): Request {
    Request(c.endpoint, Headers(c.apiKey), Payload(c.model, messages))
  }

  /** The outcome of the POST: a `RequestException` (transport error, 4xx or 5xx status,
      body that is not JSON), or a parsed body with the reported `usage.total_tokens`
      (absent at either level is `None`) and `choices[0].message.content`. */
  datatype Reply =
    | RequestFailed
    | Body(usageTokens: Option<int>, content: string)

  /** `answer.strip().strip('"')`. */
  function CleanAnswer(raw: string): string {
    Strip(Strip(raw, Whitespace), {'"'})
  }

  /** The answer `chat_complete` returns for a reply. */
  function ReplyAnswer(reply: Reply): Option<string> {
    match reply
    case RequestFailed => None
    case Body(_, content) => Some(CleanAnswer(content))
  }

  /** The client after the call, the request it sent, and the answer it returned. */
  datatype Completion = Completion(client: Client, sent: Request, answer: Option<string>)

  /** `chat_complete(messages)`: posts the conversation; on failure returns `None`
      with the counter untouched, otherwise adds the reported usage (0 when absent)
      and returns the cleaned answer. */
  function ChatComplete(c: Client, messages: seq<Message>, reply: Reply): (r: Completion)
    ensures r.sent.url == c.endpoint
    ensures r.sent.headers == Headers(c.apiKey)
    ensures ReadPayload(r.sent.body) == Some((c.model, messages))
    ensures r.client.apiKey == c.apiKey && r.client.model == c.model && r.client.endpoint == c.endpoint
    ensures reply.RequestFailed? ==> r.client == c && r.answer == None
    ensures reply.Body? ==>
      && r.client.totalTokens == c.totalTokens + reply.usageTokens.GetOr(0)
      && r.answer == Some(CleanAnswer(reply.content))
    ensures r.answer.Some? ==>
      (|r.answer.value| == 0 || (r.answer.value[0] != '"' && r.answer.value[|r.answer.value| - 1] != '"'))
  {
    PayloadRoundTrip(c.model, messages);
    var sent := RequestFor(c, messages);
    match reply
    case RequestFailed => Completion(c, sent, None)
    case Body(tokens, content) =>
      StripEnds(Strip(content, Whitespace), {'"'});
      Completion(c.(totalTokens := c.totalTokens + tokens.GetOr(0)), sent, Some(CleanAnswer(content)))
  }

  /** The cleaned answer is one contiguous piece of the raw content, with only
      whitespace and quote characters removed around it, and no quote at either end. */
  lemma CleanAnswerIsSlice(raw: string) returns (i: nat, j: nat)
    ensures i <= j <= |raw| && CleanAnswer(raw) == raw[i..j]
    ensures forall k :: 0 <= k < i ==> raw[k] in Whitespace || raw[k] == '"'
    ensures forall k :: j <= k < |raw| ==> raw[k] in Whitespace || raw[k] == '"'
    ensures i < j ==> raw[i] != '"' && raw[j - 1] != '"'
  {
    var i1, j1 := StripIsSlice(raw, Whitespace);
    var inner := raw[i1..j1];
    var i2, j2 := StripIsSlice(inner, {'"'});
    i, j := i1 + i2, i1 + j2;
    assert |inner| == j1 - i1;
    assert inner[i2..j2] == raw[i..j] by {
      forall k | 0 <= k < j2 - i2 ensures inner[i2..j2][k] == raw[i..j][k] {
        assert inner[i2 + k] == raw[i1 + i2 + k];
      }
    }
    forall k | 0 <= k < i ensures raw[k] in Whitespace || raw[k] == '"' {
      if k >= i1 { assert raw[k] == inner[k - i1]; }
    }
    forall k | j <= k < |raw| ensures raw[k] in Whitespace || raw[k] == '"' {
      if k < j1 { assert raw[k] == inner[k - i1]; }
    }
    if i < j {
      assert raw[i] == inner[i2] && raw[j - 1] == inner[j2 - 1];
    }
  }

  /** Content that has no surrounding whitespace and no leading or trailing quote is
      returned exactly as the model sent it. */
  lemma CleanAnswerKeepsPlain(raw: string)
    requires |raw| == 0 ||
      (raw[0] !in Whitespace && raw[0] != '"' && raw[|raw| - 1] !in Whitespace && raw[|raw| - 1] != '"')
    ensures CleanAnswer(raw) == raw
  {
    StripKeepsTrimmed(raw, Whitespace);
    StripKeepsTrimmed(raw, {'"'});
  }

  /** Every enclosing quote goes, not just one pair: a doubly quoted answer comes
      back bare. */
  lemma CleanAnswerStripsEveryQuote()
    ensures CleanAnswer(" \"\"fix\"\"\n") == "fix"
  {
    var raw := " \"\"fix\"\"\n";
    assert '"' !in Whitespace;
    assert TrimLeft(raw, Whitespace) == raw[1..];
    var left := raw[1..];
    assert left == "\"\"fix\"\"\n";
    assert TrimRight(left, Whitespace) == left[..|left| - 1];
    var stripped := "\"\"fix\"\"";
    assert left[..|left| - 1] == stripped;
    assert TrimLeft(stripped, {'"'}) == TrimLeft(stripped[1..], {'"'});
    assert stripped[1..][1..] == "fix\"\"";
    assert TrimLeft(stripped, {'"'}) == "fix\"\"";
    var f := "fix\"\"";
    assert f[..|f| - 1] == "fix\"";
    assert "fix\""[..3] == "fix";
    assert TrimRight(f, {'"'}) == "fix";
  }

  /** A conventional-commit line wrapped in one pair of quotes comes back bare. */
  lemma CleanAnswerUnquotes()
    ensures CleanAnswer("\"feat(x): add y\"") == "feat(x): add y"
  {
    var raw := "\"feat(x): add y\"";
    assert '"' !in Whitespace;
    StripKeepsTrimmed(raw, Whitespace);
    assert TrimLeft(raw, {'"'}) == TrimLeft(raw[1..], {'"'});
    var f := raw[1..];
    assert f == "feat(x): add y\"";
    assert TrimLeft(f, {'"'}) == f;
    assert f[..|f| - 1] == "feat(x): add y";
    assert TrimRight(f, {'"'}) == TrimRight("feat(x): add y", {'"'});
    assert TrimRight("feat(x): add y", {'"'}) == "feat(x): add y";
  }

  /** `single_question(q)`: a one-turn conversation holding the question as a user turn. */
  function SingleQuestion(c: Client, question: string, reply: Reply): (r: Completion)
    ensures ReadPayload(r.sent.body) == Some((c.model, [Message("user", question)]))
    ensures r.sent.body["messages"] == Array([Object(map["role" := String("user"), "content" := String(question)])])
  {
    var r := ChatComplete(c, [Message("user", question)], reply);
    assert ToJson(ToDict(Message("user", question))) == Object(map["role" := String("user"), "content" := String(question)]);
    r
  }
}

=== FILE: config.dfy ===
/** `load_config` of config.py: the packaged default file, overridden key by key by
    an optional user file. Reading and parsing a file are abstracted as its outcome. */
module Config {
  import opened Wrappers
  import opened Json

  /** What reading one configuration file produced. */
  datatype ReadOutcome =
    | Missing                                // the file does not exist
    | Malformed                              // `json.load` raised `JSONDecodeError`
    | Parsed(fields: map<string, Value>)     // a JSON object

  /** `load_config(default, user)`: no usable default file gives `{}`; otherwise the
      default map, updated with the user map when that one parsed. */
  function LoadConfig(defaultFile: ReadOutcome, userFile: ReadOutcome): (r: map<string, Value>)
    ensures !defaultFile.Parsed? ==> r == map[]
    ensures defaultFile.Parsed? && !userFile.Parsed? ==> r == defaultFile.fields
    ensures defaultFile.Parsed? && userFile.Parsed? ==>
      && r.Keys == defaultFile.fields.Keys + userFile.fields.Keys
      && (forall k :: k in userFile.fields ==> r[k] == userFile.fields[k])
      && (forall k :: k in defaultFile.fields && k !in userFile.fields ==> r[k] == defaultFile.fields[k])
  {
    match defaultFile
    case Parsed(defaults) =>
      (match userFile
       case Parsed(overrides) => defaults + overrides
       case _ => defaults)
    case _ => map[]
  }

  /** Reference definition of a layered lookup: the user's setting if the user file
      parsed and has the key, else the default's, and nothing without a default file. */
  function Lookup(defaultFile: ReadOutcome, userFile: ReadOutcome, key: string): Option<Value> {
    if !defaultFile.Parsed? then None
    else if userFile.Parsed? && key in userFile.fields then Some(userFile.fields[key])
    else if key in defaultFile.fields then Some(defaultFile.fields[key])
    else None
  }

  /** The merged map answers every key exactly as the layered lookup does. */
  lemma LoadConfigIsLayeredLookup(defaultFile: ReadOutcome, userFile: ReadOutcome, key: string)
    ensures var r := LoadConfig(defaultFile, userFile);
      && (key in r <==> Lookup(defaultFile, userFile, key).Some?)
      && (key in r ==> Lookup(defaultFile, userFile, key) == Some(r[key]))
  {
  }
}

=== FILE: json.dfy ===
/** JSON values as the tool reads and writes them (numbers other than integers
    are not represented). */
module Json {

  datatype Value =
    | Null
    | Bool(b: bool)
    | Int(i: int)
    | String(s: string)
    | Array(items: seq<Value>)
    | Object(fields: map<string, Value>)
}

=== FILE: text.dfy ===
/** The handful of Python `str` operations the tool relies on: `strip`, `lower`,
    `split('\n')` and `'\n'.join`, over strings as sequences of code points. */
module Text {

  /** Every character for which Python's `str.isspace()` holds; `strip()` with no
      argument removes exactly these. */
  const Whitespace: set<char> :=
    {'\t', '\n', '\U{b}', '\U{c}', '\r', '\U{1c}', '\U{1d}', '\U{1e}', '\U{1f}', ' ',
     '\U{85}', '\U{a0}', '\U{1680}',
     '\U{2000}', '\U{2001}', '\U{2002}', '\U{2003}', '\U{2004}', '\U{2005}',
     '\U{2006}', '\U{2007}', '\U{2008}', '\U{2009}', '\U{200a}',
     '\U{2028}', '\U{2029}', '\U{202f}', '\U{205f}', '\U{3000}'}

  /** Removes leading characters that belong to `cs`. */
  function TrimLeft(s: string, cs: set<char>): string
    decreases |s|
  {
    if |s| > 0 && s[0] in cs then TrimLeft(s[1..], cs) else s
  }

  /** Removes trailing characters that belong to `cs`. */
  function TrimRight(s: string, cs: set<char>): string
    decreases |s|
  {
    if |s| > 0 && s[|s| - 1] in cs then TrimRight(s[..|s| - 1], cs) else s
  }

  /** Python's `s.strip(chars)`: every leading and trailing character in `cs` goes,
      however many there are; `s.strip()` is `Strip(s, Whitespace)`. */
  function Strip(s: string, cs: set<char>): string {
    TrimRight(TrimLeft(s, cs), cs)
  }

  /** `TrimLeft` drops exactly the longest prefix made of characters in `cs`. */
  lemma {:induction false} TrimLeftIsSuffix(s: string, cs: set<char>) returns (i: nat)
    ensures i <= |s| && TrimLeft(s, cs) == s[i..]
    ensures forall k :: 0 <= k < i ==> s[k] in cs
    ensures i == |s| || s[i] !in cs
    decreases |s|
  {
    if |s| > 0 && s[0] in cs {
      var i' := TrimLeftIsSuffix(s[1..], cs);
      i := i' + 1;
      assert s[1..][i'..] == s[i..];
      forall k | 0 <= k < i ensures s[k] in cs {
        if k > 0 { assert s[k] == s[1..][k - 1]; }
      }
    } else {
      i := 0;
    }
  }

  /** `TrimRight` drops exactly the longest suffix made of characters in `cs`. */
  lemma {:induction false} TrimRightIsPrefix(s: string, cs: set<char>) returns (j: nat)
    ensures j <= |s| && TrimRight(s, cs) == s[..j]
    ensures forall k :: j <= k < |s| ==> s[k] in cs
    ensures j == 0 || s[j - 1] !in cs
    decreases |s|
  {
    if |s| > 0 && s[|s| - 1] in cs {
      var s' := s[..|s| - 1];
      j := TrimRightIsPrefix(s', cs);
      assert s'[..j] == s[..j];
      forall k | j <= k < |s| ensures s[k] in cs {
        if k < |s| - 1 { assert s[k] == s'[k]; }
      }
    } else {
      j := |s|;
    }
  }

  /** `Strip` keeps one contiguous slice of its input, removes only characters of
      `cs` around it, and leaves no character of `cs` at either end. */
  lemma StripIsSlice(s: string, cs: set<char>) returns (i: nat, j: nat)
    ensures i <= j <= |s| && Strip(s, cs) == s[i..j]
    ensures forall k :: 0 <= k < i ==> s[k] in cs
    ensures forall k :: j <= k < |s| ==> s[k] in cs
    ensures i < j ==> s[i] !in cs && s[j - 1] !in cs
  {
    i := TrimLeftIsSuffix(s, cs);
    var j' := TrimRightIsPrefix(s[i..], cs);
    j := i + j';
    assert s[i..][..j'] == s[i..j];
    forall k | j <= k < |s| ensures s[k] in cs {
      assert s[k] == s[i..][k - i];
    }
    if i < j {
      assert s[j - 1] == s[i..][j' - 1];
    }
  }

  /** The result of `Strip` neither starts nor ends with a character of `cs`. */
  lemma StripEnds(s: string, cs: set<char>)
    ensures var r := Strip(s, cs); |r| == 0 || (r[0] !in cs && r[|r| - 1] !in cs)
  {
    var i, j := StripIsSlice(s, cs);
  }

  /** A string that neither starts nor ends with a character of `cs` is left as it is. */
  lemma StripKeepsTrimmed(s: string, cs: set<char>)
    requires |s| == 0 || (s[0] !in cs && s[|s| - 1] !in cs)
    ensures Strip(s, cs) == s
  {
    var i, j := StripIsSlice(s, cs);
    if 0 < |s| {
      assert i == 0;
      assert j == |s|;
    }
  }

  /** Stripping twice with the same set is the same as stripping once. */
  lemma StripIdempotent(s: string, cs: set<char>)
    ensures Strip(Strip(s, cs), cs) == Strip(s, cs)
  {
    StripEnds(s, cs);
    StripKeepsTrimmed(Strip(s, cs), cs);
  }

  /** Python's `lower()` restricted to ASCII letters; every other character is kept.
      The only texts it maps to `"y"` are `"y"` and `"Y"`. */
  function Lower(s: string): (r: string)
    ensures |r| == |s|
    ensures r == "y" <==> s == "y" || s == "Y"
  {
    var r := seq(|s|, k requires 0 <= k < |s| => LowerChar(s[k]));
    assert forall k :: 0 <= k < |s| ==> r[k] == LowerChar(s[k]);
    assert r == "y" ==> |s| == 1 && LowerChar(s[0]) == 'y';
    assert r == "y" ==> s == [s[0]];
    r
  }

  function LowerChar(c: char): char {
    if 'A' <= c <= 'Z' then (c as int - 'A' as int + 'a' as int) as char else c
  }

  /** Index of the first `'\n'` in `s`, or `|s|` when there is none. */
  function LineEnd(s: string): (i: nat)
    ensures i <= |s|
    decreases |s|
  {
    if |s| == 0 || s[0] == '\n' then 0 else 1 + LineEnd(s[1..])
  }

  /** `LineEnd` finds the first newline. */
  lemma {:induction false} LineEndIsFirstNewline(s: string)
    ensures LineEnd(s) < |s| ==> s[LineEnd(s)] == '\n'
    ensures forall k :: 0 <= k < LineEnd(s) ==> s[k] != '\n'
    decreases |s|
  {
    if |s| > 0 && s[0] != '\n' {
      LineEndIsFirstNewline(s[1..]);
      forall k | 0 < k < LineEnd(s) ensures s[k] != '\n' {
        assert s[k] == s[1..][k - 1];
      }
    }
  }

  /** A prefix that runs past a newline at `i` is the text before it, the newline,
      and a prefix of the text after it. */
  lemma PrefixAcrossNewline(s: string, i: nat, k: nat)
    requires i + 1 + k <= |s| && s[i] == '\n'
    ensures s[..i] + "\n" + s[i + 1..][..k] == s[..i + 1 + k]
  {
    assert s[i + 1..][..k] == s[i + 1..i + 1 + k];
    assert s[..i + 1 + k] == s[..i] + [s[i]] + s[i + 1..i + 1 + k];
  }

  /** Python's `s.split('\n')`: the pieces between newlines, never an empty list. */
  function Split(s: string): (lines: seq<string>)
    ensures |lines| >= 1
    decreases |s|
  {
    var i := LineEnd(s);
    if i == |s| then [s] else [s[..i]] + Split(s[i + 1..])
  }

  /** Python's `'\n'.join(lines)`. */
  function Join(lines: seq<string>): string
    decreases |lines|
  {
    if |lines| == 0 then ""
    else if |lines| == 1 then lines[0]
    else lines[0] + "\n" + Join(lines[1..])
  }

  /** Joining a first piece in front of others puts a newline between them. */
  lemma JoinCons(a: string, rest: seq<string>)
    ensures Join([a] + rest) == if |rest| == 0 then a else a + "\n" + Join(rest)
  {
    assert ([a] + rest)[1..] == rest;
  }

  /** Joining the pieces of a split gives back the original text. */
  lemma {:induction false} JoinSplit(s: string)
    ensures Join(Split(s)) == s
    decreases |s|
  {
    var i := LineEnd(s);
    if i < |s| {
      var rest := s[i + 1..];
      JoinSplit(rest);
      LineEndIsFirstNewline(s);
      assert Split(s) == [s[..i]] + Split(rest);
      JoinCons(s[..i], Split(rest));
      PrefixAcrossNewline(s, i, |rest|);
      assert rest[..|rest|] == rest;
    } else {
      assert Split(s) == [s];
    }
  }

  /** No piece of a split contains a newline. */
  lemma {:induction false} SplitHasNoNewlines(s: string)
    ensures forall n, k :: 0 <= n < |Split(s)| && 0 <= k < |Split(s)[n]| ==> Split(s)[n][k] != '\n'
    decreases |s|
  {
    var i := LineEnd(s);
    LineEndIsFirstNewline(s);
    if i < |s| {
      SplitHasNoNewlines(s[i + 1..]);
      assert Split(s) == [s[..i]] + Split(s[i + 1..]);
    } else {
      assert Split(s) == [s];
    }
  }
}

=== FILE: truncate.dfy ===
/** `truncate_diff` of main.py: bounds the staged diff sent to the model, keeping
    whole lines and appending a fixed marker. */
module Truncate {
  import opened Text

  /** Appended to every truncated diff; 39 characters long. */
  const Marker := "\n... [diff truncated due to length] ..."

  /** Room held back from `max_length` for the marker. */
  const Reserve := 100

  /** The source's loop over the lines: a line is kept while the running total of
      `len(line) + 1` stays within `budget`; the first line that does not fit ends it. */
  function KeepLines(lines: seq<string>, total: int, budget: int): seq<string>
    decreases |lines|
  {
    if |lines| == 0 then []
    else if total + |lines[0]| + 1 > budget then []
    else [lines[0]] + KeepLines(lines[1..], total + |lines[0]| + 1, budget)
  }

  /** `truncate_diff(diff, max_length)` with `max_length` given. */
  function TruncateDiff(diff: string, maxLength: int): string {
    if |diff| <= maxLength then diff
    else Join(KeepLines(Split(diff), 0, maxLength - Reserve)) + Marker
  }

  /** Reference definition of where the kept text ends: the last newline strictly
      below `k`, or 0 when there is none. */
  function LastNewlineBelow(d: string, k: nat): (m: nat)
    requires k <= |d|
    ensures m <= k
  {
    if k == 0 then 0
    else if d[k - 1] == '\n' then k - 1
    else LastNewlineBelow(d, k - 1)
  }

  /** The length of the text a truncation keeps: up to (not including) the last
      newline whose position is below `budget`, and nothing when there is none. */
  function Cut(d: string, budget: int): nat {
    LastNewlineBelow(d, if budget < 0 then 0 else if budget > |d| then |d| else budget)
  }

  /** The line-aligned, maximal and in-budget properties that pin `Cut` down. */
  ghost predicate IsCut(d: string, budget: int, m: nat) {
    && m <= |d|
    && (m == 0 || (m < |d| && d[m] == '\n' && m < budget))
    && (forall j :: m < j < |d| && d[j] == '\n' ==> j >= budget)
  }

  lemma {:induction false} LastNewlineBelowIsLast(d: string, k: nat)
    requires k <= |d|
    ensures var m := LastNewlineBelow(d, k);
      && m <= k
      && (m == 0 || (m < k && d[m] == '\n'))
      && (forall j :: m < j < k ==> d[j] != '\n')
  {
    if k > 0 && d[k - 1] != '\n' {
      LastNewlineBelowIsLast(d, k - 1);
    }
  }

  /** `Cut` is line-aligned, within budget and maximal. */
  lemma CutIsCut(d: string, budget: int)
    ensures IsCut(d, budget, Cut(d, budget))
  {
    var k := if budget < 0 then 0 else if budget > |d| then |d| else budget;
    LastNewlineBelowIsLast(d, k);
  }

  /** Those properties determine the cut uniquely. */
  lemma CutUnique(d: string, budget: int, m: nat)
    requires IsCut(d, budget, m)
    ensures m == Cut(d, budget)
  {
    CutIsCut(d, budget);
  }

  /** The split of a text with a newline at `LineEnd(s)` is its first line followed by the
      split of what comes after that newline. */
  lemma SplitAtFirstNewline(s: string)
    requires LineEnd(s) < |s|
    ensures Split(s) == [s[..LineEnd(s)]] + Split(s[LineEnd(s) + 1..])
  {
  }

  /** What the line loop keeps, stated by the total it reaches: no line (`cost == 0`),
      or the prefix `s[..cost - 1]` that ends at a newline or at the end of `s`; every
      later newline would overflow the budget. */
  ghost predicate KeptBy(s: string, kept: seq<string>, total: int, budget: int, cost: nat) {
    && (cost == 0 ==> kept == [])
    && (cost > 0 ==>
      && kept != []
      && cost <= |s| + 1
      && Join(kept) == s[..cost - 1]
      && (cost - 1 == |s| || s[cost - 1] == '\n')
      && total + cost <= budget)
    && NoLaterFit(s, total, budget, cost)
  }

  /** Every newline at or after `from` lies beyond the budget. */
  ghost predicate NoLaterFit(s: string, total: int, budget: int, from: nat) {
    forall j :: from <= j < |s| && s[j] == '\n' ==> total + j + 1 > budget
  }

  lemma {:induction false} KeptPrefix(s: string, total: int, budget: int) returns (cost: nat)
    ensures KeptBy(s, KeepLines(Split(s), total, budget), total, budget, cost)
    decreases |s|
  {
    var i := LineEnd(s);
    if i == |s| {
      LineEndIsFirstNewline(s);
      cost := KeptSingleLine(s, total, budget);
    } else if total + i + 1 > budget {
      KeptFirstTooLong(s, total, budget);
      cost := 0;
    } else {
      var rest := s[i + 1..];
      var c' := KeptPrefix(rest, total + i + 1, budget);
      cost := KeptFirstFits(s, i, total, budget, c');
    }
  }

  /** The loop's decision on the first line of a text that has a newline. */
  lemma KeepFirstLine(s: string, total: int, budget: int)
    requires LineEnd(s) < |s|
    ensures var i := LineEnd(s);
      KeepLines(Split(s), total, budget) ==
        if total + i + 1 > budget then []
        else [s[..i]] + KeepLines(Split(s[i + 1..]), total + i + 1, budget)
  {
    SplitAtFirstNewline(s);
  }

  /** `KeptPrefix` when the first line already overflows: nothing is kept. */
  lemma KeptFirstTooLong(s: string, total: int, budget: int)
    requires LineEnd(s) < |s| && total + LineEnd(s) + 1 > budget
    ensures KeptBy(s, KeepLines(Split(s), total, budget), total, budget, 0)
  {
    LineEndIsFirstNewline(s);
    KeepFirstLine(s, total, budget);
  }

  /** `KeptPrefix` when the first line fits and the rest keeps what its total `c'` says. */
  lemma KeptFirstFits(s: string, i: nat, total: int, budget: int, c': nat) returns (cost: nat)
    requires i == LineEnd(s) && i < |s| && total + i + 1 <= budget
    requires KeptBy(s[i + 1..], KeepLines(Split(s[i + 1..]), total + i + 1, budget), total + i + 1, budget, c')
    ensures KeptBy(s, KeepLines(Split(s), total, budget), total, budget, cost)
  {
    KeepFirstLine(s, total, budget);
    cost := KeptPrefixStep(s, i, KeepLines(Split(s[i + 1..]), total + i + 1, budget), total, budget, c');
  }

  /** `KeptPrefix` for a text without a newline: it is kept whole or not at all. */
  lemma KeptSingleLine(s: string, total: int, budget: int) returns (cost: nat)
    requires LineEnd(s) == |s|
    requires forall k :: 0 <= k < |s| ==> s[k] != '\n'
    ensures KeptBy(s, KeepLines(Split(s), total, budget), total, budget, cost)
  {
    assert Split(s) == [s];
    cost := if total + |s| + 1 > budget then 0 else |s| + 1;
    if cost > 0 {
      assert KeepLines([s], total, budget) == [s];
      assert s[..cost - 1] == s;
    }
  }

  /** One step of `KeptPrefix`: the first line fits, and the rest keeps `kept'`. */
  lemma KeptPrefixStep(s: string, i: nat, kept': seq<string>, total: int, budget: int, c': nat)
    returns (cost: nat)
    requires i == LineEnd(s) && i < |s| && total + i + 1 <= budget
    requires KeptBy(s[i + 1..], kept', total + i + 1, budget, c')
    ensures KeptBy(s, [s[..i]] + kept', total, budget, cost)
  {
    var rest := s[i + 1..];
    cost := i + 1 + c';
    JoinCons(s[..i], kept');
    LineEndIsFirstNewline(s);
    if c' > 0 {
      PrefixAcrossNewline(s, i, c' - 1);
      if cost - 1 < |s| {
        assert s[cost - 1] == rest[c' - 1];
      }
    } else {
      assert [s[..i]] + kept' == [s[..i]];
    }
    NoLaterFitShift(s, i, total, budget, c');
  }

  /** Shifting the no-fit property from the text after the first newline to the whole text. */
  lemma NoLaterFitShift(s: string, i: nat, total: int, budget: int, c': nat)
    requires i < |s|
    requires NoLaterFit(s[i + 1..], total + i + 1, budget, c')
    ensures NoLaterFit(s, total, budget, i + 1 + c')
  {
    var rest := s[i + 1..];
    forall j | i + 1 + c' <= j < |s| && s[j] == '\n' ensures total + j + 1 > budget {
      assert rest[j - i - 1] == s[j];
    }
  }

  /** Main property of `truncate_diff`: an input within `maxLength` comes back
      unchanged; a longer one becomes its first `Cut` characters followed by the
      marker, so kept text is a line-aligned prefix whose line costs fit in
      `maxLength - 100`, and it stops at the first line that would not fit. */
  lemma TruncateDiffIsCutPlusMarker(d: string, maxLength: int)
    ensures |d| <= maxLength ==> TruncateDiff(d, maxLength) == d
    ensures |d| > maxLength ==>
      TruncateDiff(d, maxLength) == d[..Cut(d, maxLength - Reserve)] + Marker
  {
    if |d| > maxLength {
      var budget := maxLength - Reserve;
      var cost := KeptPrefix(d, 0, budget);
      assert NoLaterFit(d, 0, budget, cost);
      JoinSplit(d);
      var m: nat := if cost == 0 then 0 else cost - 1;
      assert IsCut(d, budget, m);
      CutUnique(d, budget, m);
    }
  }

  /** The shape of a truncated diff: a prefix of the input ending at a line
      boundary, within the budget, followed by the exact marker. */
  lemma TruncatedShape(d: string, maxLength: int) returns (m: nat)
    requires |d| > maxLength
    ensures m <= |d| && TruncateDiff(d, maxLength) == d[..m] + Marker
    ensures m == 0 || (m < |d| && d[m] == '\n' && m + 1 <= maxLength - Reserve)
    ensures forall j :: m < j < |d| && d[j] == '\n' ==> j + 1 > maxLength - Reserve
  {
    TruncateDiffIsCutPlusMarker(d, maxLength);
    m := Cut(d, maxLength - Reserve);
    CutIsCut(d, maxLength - Reserve);
  }

  /** With `maxLength` at least the marker's length the result never exceeds it. */
  lemma TruncateDiffFits(d: string, maxLength: int)
    requires maxLength >= |Marker|
    ensures |TruncateDiff(d, maxLength)| <= maxLength
  {
    if |d| > maxLength {
      var m := TruncatedShape(d, maxLength);
    }
  }

  /** With `maxLength <= 100` nothing fits in the budget: an oversized diff becomes
      the bare marker. */
  lemma TruncateDiffSmallLimit(d: string, maxLength: int)
    requires maxLength <= Reserve && |d| > maxLength
    ensures TruncateDiff(d, maxLength) == Marker
  {
    var m := TruncatedShape(d, maxLength);
    assert m == 0;
  }

  /** Truncating a truncated diff again with the same limit changes nothing. */
  lemma TruncateDiffIdempotent(d: string, maxLength: int)
    ensures TruncateDiff(TruncateDiff(d, maxLength), maxLength) == TruncateDiff(d, maxLength)
  {
    var r := TruncateDiff(d, maxLength);
    if |d| > maxLength {
      if maxLength >= |Marker| {
        TruncateDiffFits(d, maxLength);
      } else {
        TruncateDiffSmallLimit(d, maxLength);
        TruncateDiffSmallLimit(r, maxLength);
      }
    }
  }
}

=== FILE: workflow.dfy ===
/** `main()` of main.py as a state machine. Every git command, every line the user
    types and every reply of the completion endpoint comes from a `World`: three
    streams consumed in order. Each step makes exactly one external call and logs
    it, with its outcome, as one `Event`. */
module Workflow {
  import opened Wrappers
  import opened Text
  import opened Truncate
  import opened Client
  import opened Cli
  import opened Json
  import opened Config

  /** Model used when `AI_COMMIT_MODEL` is not set. */
  const DefaultModel := "bedrock/anthropic.claude-3-sonnet-20240229-v1:0"

  /** The prompts, as `read_user_input` shows them (with the trailing space). */
  const StagePrompt := "Stage all changes? (y/n): "
  const AcceptPrompt := "Accept this message? (y/n): "

  /** Text around the truncated diff in the user turn. */
  const DiffIntro := "Write commit message for the following git diff (some parts might be truncated for length):\n\n```"
  const DiffOutro := "\n\n```"

  /** What `run_git_command` hands back that the tool looks at: the exit code and
      the raw standard output. */
  datatype GitResult = GitResult(code: int, out: string)

  /** `get_diff()`: `None` when `git diff --cached` fails, else its stripped output. */
  function DiffText(g: GitResult): Option<string> {
    if g.code != 0 then None else Some(Strip(g.out, Whitespace))
  }

  /** The loop's `if diff:` test: a diff was obtained and is not empty. */
  predicate HasDiff(g: GitResult) {
    DiffText(g).Some? && DiffText(g).value != ""
  }

  /** `read_user_input(...) == "y"`; `None` stands for an interrupt or end of input. */
  predicate Agrees(answer: Option<string>) {
    answer.Some? && Lower(Strip(answer.value, Whitespace)) == "y"
  }

  /** After trimming, exactly "y" or "Y" is a yes; anything else, and an interrupt,
      is a no. */
  lemma AgreesMeaning(answer: Option<string>)
    ensures Agrees(answer) <==>
      answer.Some? && (Strip(answer.value, Whitespace) == "y" || Strip(answer.value, Whitespace) == "Y")
  {
  }

  /** One external call and what came of it. */
  datatype Event =
    | Status(code: int)                         // git status --porcelain
    | Diff(result: GitResult)                   // git diff --cached
    | Ask(prompt: string, answer: Option<string>)
    | Add(code: int)                            // git add -A
    | Chat(request: Request, reply: Reply)      // the completion request
    | Commit(message: string, code: int)        // git commit -m message
    | Push(code: int)                           // git push

  /** What the run is about to do next. */
  datatype Phase =
    | CheckClean
    | FetchDiff
    | AskStage
    | Staging
    | Generating(diff: string)
    | Confirming(message: string)
    | Committing(message: string)
    | Pushing
    | Exited(code: int)

  datatype Machine = Machine(phase: Phase, client: Client)

  /** Settings fixed at startup. */
  datatype Settings = Settings(flags: Flags, systemPrompt: string, maxDiffLength: int)

  /** Outcomes of the outside world, each stream consumed front first. */
  datatype World = World(git: seq<GitResult>, input: seq<Option<string>>, http: seq<Reply>)

  function Size(w: World): nat {
    |w.git| + |w.input| + |w.http|
  }

  /** The conversation sent for a diff: the system prompt, then the truncated diff
      wrapped in a fenced block. */
  function Conversation(s: Settings, diff: string): seq<Message> {
    [Message("system", s.systemPrompt),
     Message("user", DiffIntro + TruncateDiff(diff, s.maxDiffLength) + DiffOutro)]
  }

  /** The run can take a step: it has not exited and the stream it reads next is not empty. */
  predicate Ready(m: Machine, w: World) {
    match m.phase
    case Exited(_) => false
    case AskStage => |w.input| > 0
    case Confirming(_) => |w.input| > 0
    case Generating(_) => |w.http| > 0
    case _ => |w.git| > 0
  }

  datatype Stepped = Stepped(machine: Machine, world: World, event: Event)

  /** One pass through the body of `main()` up to its next external call. */
  function Step(s: Settings, m: Machine, w: World): (r: Stepped)
    requires Ready(m, w)
    ensures Size(r.world) == Size(w) - 1
  {
    match m.phase
    case CheckClean =>
      // is_dirty(): the exit code alone decides; the output is never read
      var g := w.git[0];
      Stepped(m.(phase := if g.code == 0 then FetchDiff else Exited(0)),
              w.(git := w.git[1..]), Status(g.code))
    case FetchDiff =>
      // a failed diff (None) is falsy, exactly like an empty one
      var g := w.git[0];
      var next :=
        if HasDiff(g) then Generating(DiffText(g).value)
        else if s.flags.autoCommit then Staging
        else AskStage;
      Stepped(m.(phase := next), w.(git := w.git[1..]), Diff(g))
    case AskStage =>
      var a := w.input[0];
      Stepped(m.(phase := if Agrees(a) then Staging else Exited(0)),
              w.(input := w.input[1..]), Ask(StagePrompt, a))
    case Staging =>
      var g := w.git[0];
      Stepped(m.(phase := if g.code == 0 then CheckClean else Exited(1)),
              w.(git := w.git[1..]), Add(g.code))
    case Generating(diff) =>
      var reply := w.http[0];
      var c := ChatComplete(m.client, Conversation(s, diff), reply);
      var next :=
        if c.answer.None? || c.answer.value == "" then Exited(1)
        else if s.flags.autoCommit then Committing(c.answer.value)
        else Confirming(c.answer.value);
      Stepped(Machine(next, c.client), w.(http := w.http[1..]), Chat(c.sent, reply))
    case Confirming(message) =>
      var a := w.input[0];
      Stepped(m.(phase := if Agrees(a) then Committing(message) else Exited(0)),
              w.(input := w.input[1..]), Ask(AcceptPrompt, a))
    case Committing(message) =>
      var g := w.git[0];
      var next :=
        if g.code != 0 then Exited(1)
        else if s.flags.autoPush then Pushing
        else Exited(0);
      Stepped(m.(phase := next), w.(git := w.git[1..]), Commit(message, g.code))
    case Pushing =>
      var g := w.git[0];
      Stepped(m.(phase := if g.code != 0 then Exited(1) else Exited(0)),
              w.(git := w.git[1..]), Push(g.code))
  }

  /** How a run ended: its exit code (`None` while it still waits on the world), the
      events it produced, and the client's final token total. */
  datatype Outcome = Outcome(exit: Option<int>, trace: seq<Event>, totalTokens: int)

  /** Runs the machine until it exits or the stream it needs runs dry. */
  function Run(s: Settings, m: Machine, w: World, trace: seq<Event>): Outcome
    decreases Size(w)
  {
    if !Ready(m, w) then
      Outcome(if m.phase.Exited? then Some(m.phase.code) else None, trace, m.client.totalTokens)
    else
      var r := Step(s, m, w);
      Run(s, r.machine, r.world, trace + [r.event])
  }

  /** The process's inputs: `sys.argv[1:]`, the three environment variables
      (`None` when unset; `load_dotenv` has already run; the system prompt is taken
      as given, with its long default text), and what reading the two configuration
      files produced. */
  datatype Invocation = Invocation(
    args: seq<string>,
    apiKey: Option<string>,
    model: Option<string>,
    systemPrompt: string,
    defaultConfig: ReadOutcome,
    userConfig: ReadOutcome)

  /** Limit used when the configuration has no `max_diff_length`. */
  const DefaultMaxDiffLength := 6000

  /** `config.get('max_diff_length', 6000)` as `truncate_diff` uses it: an integer is
      taken as is, a boolean counts as 0 or 1 (Python's `bool` is an `int`). */
  function DiffLimit(cfg: map<string, Value>): int {
    if "max_diff_length" !in cfg then DefaultMaxDiffLength
    else match cfg["max_diff_length"]
      case Int(n) => n
      case Bool(b) => if b then 1 else 0
      case _ => DefaultMaxDiffLength
  }

  /** The limit follows the layered lookup: when the default file parsed, the user
      file's setting, else the default file's, else 6000; otherwise 6000. */
  lemma DiffLimitLayered(inv: Invocation)
    ensures var v := Lookup(inv.defaultConfig, inv.userConfig, "max_diff_length");
      DiffLimit(LoadConfig(inv.defaultConfig, inv.userConfig)) ==
        if v.Some? && v.value.Int? then v.value.i
        else if v.Some? && v.value.Bool? then (if v.value.b then 1 else 0)
        else DefaultMaxDiffLength
  {
    LoadConfigIsLayeredLookup(inv.defaultConfig, inv.userConfig, "max_diff_length");
  }

  /** The key check of `main()`: `if not api_key` rejects a missing and an empty key. */
  predicate HasKey(inv: Invocation) {
    inv.apiKey.Some? && inv.apiKey.value != ""
  }

  /** The settings a run uses: the flags, the system prompt, and the diff limit read
      from the merged configuration. */
  function SettingsOf(inv: Invocation, flags: Flags): Settings {
    Settings(flags, inv.systemPrompt, DiffLimit(LoadConfig(inv.defaultConfig, inv.userConfig)))
  }

  /** The client `main()` builds: the key and the model, `DefaultModel` when unset. */
  function ClientOf(inv: Invocation): Client
    requires HasKey(inv)
  {
    NewClient(inv.apiKey.value, inv.model.GetOr(DefaultModel))
  }

  /** `main()`: the argument scan, the key check, then the machine from `CheckClean`. */
  function Execute(inv: Invocation, w: World): Outcome {
    match ParseArgs(inv.args)
    case ShowHelp => Outcome(Some(0), [], 0)
    case Proceed(flags) =>
      if !HasKey(inv) then Outcome(Some(1), [], 0)
      else Run(SettingsOf(inv, flags), Machine(CheckClean, ClientOf(inv)), w, [])
  }
}

=== FILE: workflow_proofs.dfy ===
/** What every run of `main()` guarantees, stated on the event trace alone. */
module WorkflowProofs {
  import opened Wrappers
  import opened Client
  import opened Cli
  import opened Workflow

  /** The completion endpoint has not been called. */
  ghost predicate NoChat(t: seq<Event>) {
    forall i :: 0 <= i < |t| ==> !t[i].Chat?
  }

  /** `e` is a completion whose cleaned answer is `message`. */
  ghost predicate Answered(e: Event, message: string) {
    e.Chat? && ReplyAnswer(e.reply) == Some(message)
  }

  /** `e` is an answer to `prompt` that reads as "y". */
  ghost predicate Accepted(e: Event, prompt: string) {
    e.Ask? && e.prompt == prompt && Agrees(e.answer)
  }

  /** `e` is a diff call that gave nothing to describe (failed or empty). */
  ghost predicate NoDiff(e: Event) {
    e.Diff? && !HasDiff(e.result)
  }

  /** The event at `i` may be a completion: it follows a diff call that produced a
      non-empty diff, and it sends exactly the system prompt and that diff, truncated. */
  ghost predicate ChatOk(s: Settings, c0: Client, t: seq<Event>, i: int)
    requires 0 <= i < |t|
  {
    && t[i].Chat? && 0 < i && t[i - 1].Diff? && HasDiff(t[i - 1].result)
    && t[i].request == RequestFor(c0, Conversation(s, DiffText(t[i - 1].result).value))
  }

  /** The commit at `i` carries the completion's answer unchanged and, without `-a`,
      the user accepted it in between. */
  ghost predicate CommitOk(s: Settings, t: seq<Event>, i: int)
    requires 0 <= i < |t| && t[i].Commit?
  {
    && t[i].message != ""
    && if s.flags.autoCommit then 0 < i && Answered(t[i - 1], t[i].message)
       else 1 < i && Accepted(t[i - 1], AcceptPrompt) && Answered(t[i - 2], t[i].message)
  }

  /** The stage at `i` follows a diff that gave nothing (with `-a`) or the user's "y"
      to the staging prompt (without). */
  ghost predicate AddOk(s: Settings, t: seq<Event>, i: int)
    requires 0 <= i < |t|
  {
    0 < i && if s.flags.autoCommit then NoDiff(t[i - 1]) else Accepted(t[i - 1], StagePrompt)
  }

  /** The push at `i` was asked for and follows a successful commit. */
  ghost predicate PushOk(s: Settings, t: seq<Event>, i: int)
    requires 0 <= i < |t|
  {
    s.flags.autoPush && 0 < i && t[i - 1].Commit? && t[i - 1].code == 0
  }

  /** The ordering guarantees of a trace. */
  ghost predicate TraceOk(s: Settings, c0: Client, t: seq<Event>) {
    && (|t| > 0 ==> t[0].Status?)
    && (forall i :: 0 <= i < |t| && t[i].Chat? ==> ChatOk(s, c0, t, i))
    && (forall i, j :: 0 <= i < |t| && 0 <= j < |t| && t[i].Chat? && t[j].Chat? ==> i == j)
    && (forall i :: 0 <= i < |t| && t[i].Commit? ==> CommitOk(s, t, i))
    && (forall i :: 0 <= i < |t| && t[i].Add? ==> AddOk(s, t, i))
    && (forall i :: 0 <= i < |t| && t[i].Push? ==> PushOk(s, t, i))
  }

  /** The completion gave no usable message. */
  predicate Unanswered(reply: Reply) {
    ReplyAnswer(reply).None? || ReplyAnswer(reply).value == ""
  }

  /** An event after which `main()` exits with status 1. */
  predicate Fatal(e: Event) {
    match e
    case Add(code) => code != 0
    case Chat(_, reply) => Unanswered(reply)
    case Commit(_, code) => code != 0
    case Push(code) => code != 0
    case _ => false
  }

  /** An event after which `main()` exits: a clean (or unreadable) tree, a refusal or
      interrupt, a fatal failure, a commit with no push to follow, or any push. */
  predicate Stops(s: Settings, e: Event) {
    match e
    case Status(code) => code != 0
    case Diff(_) => false
    case Ask(_, answer) => !Agrees(answer)
    case Commit(_, code) => code != 0 || !s.flags.autoPush
    case Push(_) => true
    case _ => Fatal(e)
  }

  /** Tokens the replies in a trace reported, as the client adds them up. */
  function TokensUsed(t: seq<Event>): int
    decreases |t|
  {
    if |t| == 0 then 0
    else
      var e := t[|t| - 1];
      TokensUsed(t[..|t| - 1]) + TokensOf(e)
  }

  /** How an exit relates to the trace: it comes right after the first stopping event,
      with status 1 exactly when that event was a failure. */
  ghost predicate ExitOk(s: Settings, t: seq<Event>, code: int) {
    && |t| > 0
    && Stops(s, t[|t| - 1])
    && code == (if Fatal(t[|t| - 1]) then 1 else 0)
    && forall i :: 0 <= i < |t| - 1 ==> !Stops(s, t[i])
  }

  /** What the trace so far says about the phase the machine is in. */
  ghost predicate PhaseOk(s: Settings, p: Phase, t: seq<Event>) {
    match p
    case CheckClean => NoChat(t) && (|t| == 0 || t[|t| - 1].Add?)
    case FetchDiff => NoChat(t) && |t| > 0 && t[|t| - 1].Status?
    case AskStage => NoChat(t) && !s.flags.autoCommit && |t| > 0 && NoDiff(t[|t| - 1])
    case Staging =>
      && NoChat(t) && |t| > 0
      && if s.flags.autoCommit then NoDiff(t[|t| - 1]) else Accepted(t[|t| - 1], StagePrompt)
    case Generating(diff) =>
      && NoChat(t) && |t| > 0 && t[|t| - 1].Diff? && HasDiff(t[|t| - 1].result)
      && DiffText(t[|t| - 1].result).value == diff
    case Confirming(message) =>
      && !s.flags.autoCommit && message != "" && |t| > 0 && Answered(t[|t| - 1], message)
    case Committing(message) =>
      && message != ""
      && if s.flags.autoCommit then |t| > 0 && Answered(t[|t| - 1], message)
         else |t| > 1 && Accepted(t[|t| - 1], AcceptPrompt) && Answered(t[|t| - 2], message)
    case Pushing => s.flags.autoPush && |t| > 0 && t[|t| - 1].Commit? && t[|t| - 1].code == 0
    case Exited(code) => ExitOk(s, t, code)
  }

  /** The invariant of a run started from `CheckClean` with client `c0`. */
  ghost predicate Inv(s: Settings, c0: Client, m: Machine, t: seq<Event>) {
    && TraceOk(s, c0, t)
    && m.client == c0.(totalTokens := c0.totalTokens + TokensUsed(t))
    && PhaseOk(s, m.phase, t)
    && (!m.phase.Exited? ==> forall i :: 0 <= i < |t| ==> !Stops(s, t[i]))
  }

  /** What the new last event `e` must satisfy for `t + [e]` to stay ordered. */
  ghost predicate EventOk(s: Settings, c0: Client, t: seq<Event>, e: Event) {
    && (|t| == 0 ==> e.Status?)
    && (e.Chat? ==> NoChat(t) && ChatOk(s, c0, t + [e], |t|))
    && (e.Commit? ==> CommitOk(s, t + [e], |t|))
    && (e.Add? ==> AddOk(s, t + [e], |t|))
    && (e.Push? ==> PushOk(s, t + [e], |t|))
  }

  lemma AppendKeepsOrder(s: Settings, c0: Client, t: seq<Event>, e: Event)
    requires TraceOk(s, c0, t) && EventOk(s, c0, t, e)
    ensures TraceOk(s, c0, t + [e])
  {
    var t' := t + [e];
    forall i | 0 <= i < |t| && t'[i].Chat? ensures ChatOk(s, c0, t', i) {
      assert t'[i] == t[i] && t'[i - 1] == t[i - 1];
    }
    forall i | 0 <= i < |t| && t'[i].Commit? ensures CommitOk(s, t', i) {
      assert t'[i] == t[i] && t'[i - 1] == t[i - 1];
      if 1 < i { assert t'[i - 2] == t[i - 2]; }
    }
    forall i | 0 <= i < |t| && t'[i].Add? ensures AddOk(s, t', i) {
      assert t'[i] == t[i] && t'[i - 1] == t[i - 1];
    }
    forall i | 0 <= i < |t| && t'[i].Push? ensures PushOk(s, t', i) {
      assert t'[i] == t[i] && t'[i - 1] == t[i - 1];
    }
    forall i, j | 0 <= i < |t'| && 0 <= j < |t'| && t'[i].Chat? && t'[j].Chat? ensures i == j {
      if i < |t| && j < |t| {
        assert t'[i] == t[i] && t'[j] == t[j];
      }
    }
  }

  lemma TokensAppend(t: seq<Event>, e: Event)
    ensures TokensUsed(t + [e]) == TokensUsed(t) + TokensOf(e)
  {
    assert (t + [e])[..|t|] == t;
  }

  function TokensOf(e: Event): int {
    if e.Chat? && e.reply.Body? then e.reply.usageTokens.GetOr(0) else 0
  }

  /** Extending a trace by one event keeps the invariant when the event is allowed
      where it stands, the new phase matches the extended trace, the token total
      follows, and the machine exits exactly after a stopping event with the right code. */
  lemma Extend(s: Settings, c0: Client, m: Machine, t: seq<Event>, m': Machine, e: Event)
    requires Inv(s, c0, m, t) && !m.phase.Exited?
    requires EventOk(s, c0, t, e)
    requires m'.client == c0.(totalTokens := c0.totalTokens + TokensUsed(t) + TokensOf(e))
    requires m'.phase.Exited? <==> Stops(s, e)
    requires m'.phase.Exited? ==> m'.phase.code == if Fatal(e) then 1 else 0
    requires !m'.phase.Exited? ==> PhaseOk(s, m'.phase, t + [e])
    ensures Inv(s, c0, m', t + [e])
  {
    var t' := t + [e];
    TokensAppend(t, e);
    AppendKeepsOrder(s, c0, t, e);
    assert forall i :: 0 <= i < |t| ==> t'[i] == t[i];
    assert t'[|t|] == e;
  }

  /** One step keeps the invariant. */
  lemma StepKeepsInv(s: Settings, c0: Client, m: Machine, w: World, t: seq<Event>)
    requires Inv(s, c0, m, t) && Ready(m, w)
    ensures var r := Step(s, m, w); Inv(s, c0, r.machine, t + [r.event])
  {
    match m.phase {
      case Generating(_) => StepGenerating(s, c0, m, w, t);
      case AskStage => StepAsk(s, c0, m, w, t);
      case Confirming(_) => StepAsk(s, c0, m, w, t);
      case Committing(_) => StepFinish(s, c0, m, w, t);
      case Pushing => StepFinish(s, c0, m, w, t);
      case _ => StepLoop(s, c0, m, w, t);
    }
  }

  /** A step that adds no completion keeps the run free of completions. */
  lemma KeepsNoChat(t: seq<Event>, e: Event)
    requires NoChat(t) && !e.Chat?
    ensures NoChat(t + [e])
  {
    var t' := t + [e];
    forall i | 0 <= i < |t'| ensures !t'[i].Chat? {
      if i < |t| { assert t'[i] == t[i]; }
    }
  }

  /** The staging loop's steps: the dirty check, the diff, and `git add -A`. */
  lemma StepLoop(s: Settings, c0: Client, m: Machine, w: World, t: seq<Event>)
    requires Inv(s, c0, m, t) && Ready(m, w)
    requires m.phase.CheckClean? || m.phase.FetchDiff? || m.phase.Staging?
    ensures var r := Step(s, m, w); Inv(s, c0, r.machine, t + [r.event])
  {
    var r := Step(s, m, w);
    var e := r.event;
    var t' := t + [e];
    assert t'[|t|] == e;
    assert |t| > 0 ==> t'[|t| - 1] == t[|t| - 1];
    KeepsNoChat(t, e);
    assert EventOk(s, c0, t, e);
    Extend(s, c0, m, t, r.machine, e);
  }

  /** The two prompts. */
  lemma StepAsk(s: Settings, c0: Client, m: Machine, w: World, t: seq<Event>)
    requires Inv(s, c0, m, t) && Ready(m, w)
    requires m.phase.AskStage? || m.phase.Confirming?
    ensures var r := Step(s, m, w); Inv(s, c0, r.machine, t + [r.event])
  {
    var r := Step(s, m, w);
    var e := r.event;
    var t' := t + [e];
    assert t'[|t|] == e;
    assert |t| > 0 ==> t'[|t| - 1] == t[|t| - 1];
    if m.phase.AskStage? {
      KeepsNoChat(t, e);
    }
    Extend(s, c0, m, t, r.machine, e);
  }

  /** The commit and the push. */
  lemma StepFinish(s: Settings, c0: Client, m: Machine, w: World, t: seq<Event>)
    requires Inv(s, c0, m, t) && Ready(m, w)
    requires m.phase.Committing? || m.phase.Pushing?
    ensures var r := Step(s, m, w); Inv(s, c0, r.machine, t + [r.event])
  {
    var r := Step(s, m, w);
    var e := r.event;
    var t' := t + [e];
    assert t'[|t|] == e;
    assert |t| > 0 ==> t'[|t| - 1] == t[|t| - 1];
    assert |t| > 1 ==> t'[|t| - 2] == t[|t| - 2];
    assert EventOk(s, c0, t, e);
    Extend(s, c0, m, t, r.machine, e);
  }

  /** The completion step: the only place the endpoint is called. */
  lemma StepGenerating(s: Settings, c0: Client, m: Machine, w: World, t: seq<Event>)
    requires Inv(s, c0, m, t) && Ready(m, w) && m.phase.Generating?
    ensures var r := Step(s, m, w); Inv(s, c0, r.machine, t + [r.event])
  {
    var r := Step(s, m, w);
    var e := r.event;
    var t' := t + [e];
    assert t'[|t|] == e;
    assert t'[|t| - 1] == t[|t| - 1];
    var c := ChatComplete(m.client, Conversation(s, m.phase.diff), w.http[0]);
    assert c.sent == RequestFor(c0, Conversation(s, m.phase.diff));
    assert EventOk(s, c0, t, e);
    Extend(s, c0, m, t, r.machine, e);
  }

  /** Everything a run from an invariant state guarantees about its outcome. */
  ghost predicate OutcomeOk(s: Settings, c0: Client, o: Outcome) {
    && TraceOk(s, c0, o.trace)
    && o.totalTokens == c0.totalTokens + TokensUsed(o.trace)
    && (o.exit.Some? ==> ExitOk(s, o.trace, o.exit.value))
    && (o.exit.None? ==> forall i :: 0 <= i < |o.trace| ==> !Stops(s, o.trace[i]))
  }

  lemma {:induction false} RunKeepsInv(s: Settings, c0: Client, m: Machine, w: World, t: seq<Event>)
    requires Inv(s, c0, m, t)
    ensures OutcomeOk(s, c0, Run(s, m, w, t))
    decreases Size(w)
  {
    if Ready(m, w) {
      var r := Step(s, m, w);
      StepKeepsInv(s, c0, m, w, t);
      RunKeepsInv(s, c0, r.machine, r.world, t + [r.event]);
    }
  }

  /** The guarantees of `main()` for every command line, environment and world:
      `-h` wins wherever it appears and a missing or empty key exits 1, both before
      any git call; otherwise the trace starts with `git status`, never contacts the
      endpoint before a non-empty diff and then only once with exactly the system
      prompt and the truncated diff, commits the cleaned answer unchanged (after a
      "y" unless `-a`), stages only after an empty or failed diff (with `-a`) or a
      "y", pushes only with `-p` right after a successful commit, stops at the first
      stopping event with status 1 exactly for failures, and reports the summed usage. */
  lemma ExecuteGuarantees(inv: Invocation, w: World)
    ensures ParseArgs(inv.args).ShowHelp? ==> Execute(inv, w) == Outcome(Some(0), [], 0)
    ensures ParseArgs(inv.args).Proceed? && !HasKey(inv) ==> Execute(inv, w) == Outcome(Some(1), [], 0)
    ensures ParseArgs(inv.args).Proceed? && HasKey(inv) ==>
      OutcomeOk(SettingsOf(inv, ParseArgs(inv.args).flags), ClientOf(inv), Execute(inv, w))
  {
    if ParseArgs(inv.args).Proceed? && HasKey(inv) {
      var s := SettingsOf(inv, ParseArgs(inv.args).flags);
      var c0 := ClientOf(inv);
      assert Inv(s, c0, Machine(CheckClean, c0), []);
      RunKeepsInv(s, c0, Machine(CheckClean, c0), w, []);
    }
  }
}

=== FILE: workflow_scenarios.dfy ===
/** Particular runs of `main()`: the quirks of the source, stated on whole runs. */
module WorkflowScenarios {
  import opened Wrappers
  import opened Text
  import opened Client
  import opened Cli
  import opened Config
  import opened Workflow

  /** `Run` takes one step when it can. */
  lemma RunUnfold(s: Settings, m: Machine, w: World, t: seq<Event>)
    requires Ready(m, w)
    ensures var r := Step(s, m, w); Run(s, m, w, t) == Run(s, r.machine, r.world, t + [r.event])
  {
  }

  /** On a clean tree, or when `git status` fails, the run exits 0 right after the
      status call: nothing is staged and the endpoint is never contacted. */
  lemma CleanTreeExitsAtOnce(inv: Invocation, w: World)
    requires ParseArgs(inv.args).Proceed? && HasKey(inv)
    requires |w.git| > 0 && w.git[0].code != 0
    ensures Execute(inv, w) == Outcome(Some(0), [Status(w.git[0].code)], 0)
  {
    var s := SettingsOf(inv, ParseArgs(inv.args).flags);
    var m := Machine(CheckClean, ClientOf(inv));
    RunUnfold(s, m, w, []);
    assert Step(s, m, w).machine == m.(phase := Exited(0));
  }

  /** `is_dirty` reads only the exit code: at every dirty check, however the run
      reached it and whatever trace precedes it, what `git status --porcelain`
      prints (even nothing, on a clean tree) does not change the rest of the run. */
  lemma StatusOutputIgnored(s: Settings, c: Client, w: World, t: seq<Event>, out: string)
    requires |w.git| > 0
    ensures Run(s, Machine(CheckClean, c), w.(git := w.git[0 := GitResult(w.git[0].code, out)]), t)
         == Run(s, Machine(CheckClean, c), w, t)
  {
    var w' := w.(git := w.git[0 := GitResult(w.git[0].code, out)]);
    assert w'.git[1..] == w.git[1..];
    assert Step(s, Machine(CheckClean, c), w') == Step(s, Machine(CheckClean, c), w);
  }

  /** In particular the first dirty check of `main()` ignores the output. */
  lemma DirtyCheckIgnoresOutput(inv: Invocation, w: World, out: string)
    requires |w.git| > 0
    ensures Execute(inv, w.(git := w.git[0 := GitResult(w.git[0].code, out)])) == Execute(inv, w)
  {
    if ParseArgs(inv.args).Proceed? && HasKey(inv) {
      StatusOutputIgnored(SettingsOf(inv, ParseArgs(inv.args).flags), ClientOf(inv), w, [], out);
    }
  }

  /** Without `-a`, a refused or interrupted staging prompt exits 0 before anything
      is staged. */
  lemma DeclinedStagingExitsZero(inv: Invocation, diff: GitResult, answer: Option<string>, w: World)
    requires ParseArgs(inv.args).Proceed? && !ParseArgs(inv.args).flags.autoCommit && HasKey(inv)
    requires !HasDiff(diff) && !Agrees(answer)
    ensures Execute(inv, World([GitResult(0, ""), diff] + w.git, [answer] + w.input, w.http))
      == Outcome(Some(0), [Status(0), Diff(diff), Ask(StagePrompt, answer)], 0)
  {
    var s := SettingsOf(inv, ParseArgs(inv.args).flags);
    var c := ClientOf(inv);
    var w0 := World([GitResult(0, ""), diff] + w.git, [answer] + w.input, w.http);
    var w1 := World([diff] + w.git, [answer] + w.input, w.http);
    SpinStatus(s, c, "", w1, []);
    assert w1.(git := [GitResult(0, "")] + w1.git) == w0;
    assert [] + [Status(0)] == [Status(0)];
    DiffThenDecline(s, c, diff, answer, w, [Status(0)]);
    assert [Status(0)] + [Diff(diff), Ask(StagePrompt, answer)] == [Status(0), Diff(diff), Ask(StagePrompt, answer)];
    assert Execute(inv, w0) == Run(s, Machine(CheckClean, c), w0, []);
  }

  /** Without `-a`, an empty or failed diff leads to the staging prompt, and a "no"
      there ends the run with 0. */
  lemma DiffThenDecline(s: Settings, c: Client, diff: GitResult, answer: Option<string>, w: World,
                        t: seq<Event>)
    requires !s.flags.autoCommit && !HasDiff(diff) && !Agrees(answer)
    ensures Run(s, Machine(FetchDiff, c), World([diff] + w.git, [answer] + w.input, w.http), t)
      == Outcome(Some(0), t + [Diff(diff), Ask(StagePrompt, answer)], c.totalTokens)
  {
    var w1 := World([diff] + w.git, [answer] + w.input, w.http);
    var w2 := World(w.git, [answer] + w.input, w.http);
    var w3 := World(w.git, w.input, w.http);
    assert w1.git[1..] == w.git;
    assert w2.input[1..] == w.input;
    RunUnfold(s, Machine(FetchDiff, c), w1, t);
    assert Step(s, Machine(FetchDiff, c), w1) == Stepped(Machine(AskStage, c), w2, Diff(diff));
    RunUnfold(s, Machine(AskStage, c), w2, t + [Diff(diff)]);
    assert Step(s, Machine(AskStage, c), w2) == Stepped(Machine(Exited(0), c), w3, Ask(StagePrompt, answer));
    assert t + [Diff(diff)] + [Ask(StagePrompt, answer)] == t + [Diff(diff), Ask(StagePrompt, answer)];
  }

  /** `Step` never reads `-t`. */
  lemma StepIgnoresAutoTag(s: Settings, m: Machine, w: World, b: bool)
    requires Ready(m, w)
    ensures Step(s.(flags := s.flags.(autoTag := b)), m, w) == Step(s, m, w)
  {
    var s' := s.(flags := s.flags.(autoTag := b));
    assert forall d :: Conversation(s', d) == Conversation(s, d);
  }

  lemma {:induction false} RunIgnoresAutoTag(s: Settings, m: Machine, w: World, t: seq<Event>, b: bool)
    ensures Run(s.(flags := s.flags.(autoTag := b)), m, w, t) == Run(s, m, w, t)
    decreases Size(w)
  {
    if Ready(m, w) {
      StepIgnoresAutoTag(s, m, w, b);
      var r := Step(s, m, w);
      RunIgnoresAutoTag(s, r.machine, r.world, t + [r.event], b);
    }
  }

  /** `-t` is parsed but never acted on: adding it changes nothing about the run. */
  lemma AutoTagIsInert(inv: Invocation, w: World)
    ensures Execute(inv.(args := inv.args + ["-t"]), w) == Execute(inv, w)
  {
    var f0 := Flags(false, false, false);
    ParseFromAppend(inv.args, f0, "-t");
    match ParseArgs(inv.args)
    case ShowHelp =>
    case Proceed(g) =>
      assert ParseArgs(inv.args + ["-t"]) == Proceed(g.(autoTag := true));
      if HasKey(inv) {
        var s := SettingsOf(inv, g);
        RunIgnoresAutoTag(s, Machine(CheckClean, ClientOf(inv)), w, [], true);
        assert SettingsOf(inv.(args := inv.args + ["-t"]), g.(autoTag := true))
            == s.(flags := s.flags.(autoTag := true));
      }
  }

  /** One turn of the staging loop that makes no progress: the tree is reported
      dirty, there is no staged diff, and staging succeeds. */
  function SpinGit(k: nat): seq<GitResult> {
    if k == 0 then [] else [GitResult(0, ""), GitResult(0, ""), GitResult(0, "")] + SpinGit(k - 1)
  }

  function SpinTrace(k: nat): seq<Event> {
    if k == 0 then [] else [Status(0), Diff(GitResult(0, "")), Add(0)] + SpinTrace(k - 1)
  }

  /** `f` gives the same outcome before and after one unproductive round. */
  ghost predicate RoundReturns(f: (World, seq<Event>) -> Outcome, w: World, t: seq<Event>) {
    f(w.(git := [GitResult(0, ""), GitResult(0, ""), GitResult(0, "")] + w.git), t)
    == f(w, t + [Status(0), Diff(GitResult(0, "")), Add(0)])
  }

  /** Any run that comes back to where it started after one unproductive round
      comes back after `k` of them. */
  lemma {:induction false} IterateRounds(f: (World, seq<Event>) -> Outcome, k: nat, w: World, t: seq<Event>)
    requires forall w': World, t': seq<Event> :: RoundReturns(f, w', t')
    ensures f(w.(git := SpinGit(k) + w.git), t) == f(w, t + SpinTrace(k))
    decreases k
  {
    if k == 0 {
      assert SpinGit(0) + w.git == w.git;
      assert t + SpinTrace(0) == t;
    } else {
      var g := GitResult(0, "");
      var t' := t + [Status(0), Diff(g), Add(0)];
      var wk := w.(git := SpinGit(k - 1) + w.git);
      assert [g, g, g] + wk.git == SpinGit(k) + w.git;
      assert wk.(git := [g, g, g] + wk.git) == w.(git := SpinGit(k) + w.git);
      assert RoundReturns(f, wk, t);
      IterateRounds(f, k - 1, w, t');
      assert t' + SpinTrace(k - 1) == t + SpinTrace(k);
    }
  }

  /** With `-a`, the staging loop repeats for as long as git keeps answering this way:
      `k` rounds leave the run back at the dirty check, with nothing committed. */
  lemma StagingLoopCanSpin(s: Settings, c: Client, k: nat, w: World, t: seq<Event>)
    requires s.flags.autoCommit
    ensures Run(s, Machine(CheckClean, c), w.(git := SpinGit(k) + w.git), t)
         == Run(s, Machine(CheckClean, c), w, t + SpinTrace(k))
  {
    var f := (w': World, t': seq<Event>) => Run(s, Machine(CheckClean, c), w', t');
    forall w': World, t': seq<Event> ensures RoundReturns(f, w', t') {
      EmptyDiffIsNoDiff();
      SpinRound(s, c, "", GitResult(0, ""), "", w', t');
    }
    IterateRounds(f, k, w, t);
  }

  /** An empty diff gives nothing to describe. */
  lemma EmptyDiffIsNoDiff()
    ensures !HasDiff(GitResult(0, ""))
  {
    assert Strip("", Whitespace) == "";
  }

  /** One round of the loop with `-a`: a successful status (whatever it prints), a
      diff that failed or came back empty, and a successful stage (whatever it
      prints) bring the run back to the dirty check. */
  lemma SpinRound(s: Settings, c: Client, status: string, d: GitResult, added: string,
                  w: World, t: seq<Event>)
    requires s.flags.autoCommit && !HasDiff(d)
    ensures Run(s, Machine(CheckClean, c), w.(git := [GitResult(0, status), d, GitResult(0, added)] + w.git), t)
         == Run(s, Machine(CheckClean, c), w, t + [Status(0), Diff(d), Add(0)])
  {
    var w1 := w.(git := [GitResult(0, added)] + w.git);
    var t2 := t + [Status(0), Diff(d)];
    assert w1.(git := [GitResult(0, status), d] + w1.git)
        == w.(git := [GitResult(0, status), d, GitResult(0, added)] + w.git);
    assert t2 + [Add(0)] == t + [Status(0), Diff(d), Add(0)];
    SpinStatusDiff(s, c, status, d, w1, t);
    SpinAdd(s, c, added, w, t2);
  }

  /** The first two calls of a round: a successful status and a diff that gave
      nothing lead to staging. */
  lemma SpinStatusDiff(s: Settings, c: Client, status: string, d: GitResult, w: World, t: seq<Event>)
    requires s.flags.autoCommit && !HasDiff(d)
    ensures Run(s, Machine(CheckClean, c), w.(git := [GitResult(0, status), d] + w.git), t)
         == Run(s, Machine(Staging, c), w, t + [Status(0), Diff(d)])
  {
    var w1 := w.(git := [d] + w.git);
    assert w1.(git := [GitResult(0, status)] + w1.git) == w.(git := [GitResult(0, status), d] + w.git);
    assert t + [Status(0)] + [Diff(d)] == t + [Status(0), Diff(d)];
    SpinStatus(s, c, status, w1, t);
    SpinDiff(s, c, d, w, t + [Status(0)]);
  }

  /** A dirty check whose status command succeeds moves on to the diff, whatever
      the command printed. */
  lemma SpinStatus(s: Settings, c: Client, status: string, w: World, t: seq<Event>)
    ensures Run(s, Machine(CheckClean, c), w.(git := [GitResult(0, status)] + w.git), t)
         == Run(s, Machine(FetchDiff, c), w, t + [Status(0)])
  {
    var w0 := w.(git := [GitResult(0, status)] + w.git);
    assert w0.git[1..] == w.git;
    RunUnfold(s, Machine(CheckClean, c), w0, t);
  }

  /** With `-a`, a diff that failed is treated exactly like an empty one: both go
      to staging. */
  lemma SpinDiff(s: Settings, c: Client, d: GitResult, w: World, t: seq<Event>)
    requires s.flags.autoCommit && !HasDiff(d)
    ensures Run(s, Machine(FetchDiff, c), w.(git := [d] + w.git), t)
         == Run(s, Machine(Staging, c), w, t + [Diff(d)])
  {
    var w0 := w.(git := [d] + w.git);
    assert w0.git[1..] == w.git;
    RunUnfold(s, Machine(FetchDiff, c), w0, t);
  }

  /** A successful `git add -A` returns to the dirty check; its output is never read. */
  lemma SpinAdd(s: Settings, c: Client, added: string, w: World, t: seq<Event>)
    ensures Run(s, Machine(Staging, c), w.(git := [GitResult(0, added)] + w.git), t)
         == Run(s, Machine(CheckClean, c), w, t + [Add(0)])
  {
    var w0 := w.(git := [GitResult(0, added)] + w.git);
    assert w0.git[1..] == w.git;
    RunUnfold(s, Machine(Staging, c), w0, t);
  }

  /** Hence the loop has no bound: for every `k` there is a world in which the run has
      made `3 * k` calls without exiting. */
  lemma StagingLoopHasNoBound(s: Settings, c: Client, k: nat)
    requires s.flags.autoCommit
    ensures Run(s, Machine(CheckClean, c), World(SpinGit(k), [], []), [])
         == Outcome(None, SpinTrace(k), c.totalTokens)
  {
    StagingLoopCanSpin(s, c, k, World([], [], []), []);
    assert SpinGit(k) + [] == SpinGit(k);
  }

  /** An automated run (`-a`) on an unstaged change: status, empty diff, stage,
      status, diff, one completion whose reply is the quoted line
      `"feat(x): add y"`, then a commit with exactly `feat(x): add y`; exit 0 with the
      reported 5 tokens counted. */
  lemma AutoCommitScenario(prompt: string)
    ensures var o := Execute(
        Invocation(["-a"], Some("key"), None, prompt, Missing, Missing),
        World([GitResult(0, ""), GitResult(0, ""), GitResult(0, ""), GitResult(0, ""), GitResult(0, "+x"), GitResult(0, "")],
              [], [Body(Some(5), "\"feat(x): add y\"")]));
      && o.exit == Some(0)
      && |o.trace| == 7
      && o.trace[..5] == [Status(0), Diff(GitResult(0, "")), Add(0), Status(0), Diff(GitResult(0, "+x"))]
      && o.trace[5].Chat?
      && o.trace[6] == Commit("feat(x): add y", 0)
      && o.totalTokens == 5
  {
    var inv := Invocation(["-a"], Some("key"), None, prompt, Missing, Missing);
    var reply := Body(Some(5), "\"feat(x): add y\"");
    var ok := GitResult(0, "");
    var d := GitResult(0, "+x");
    var w0 := World([ok, ok, ok, ok, d, ok], [], [reply]);
    var wa := World([ok, d, ok], [], [reply]);
    var s := SettingsOf(inv, Flags(true, false, false));
    var c := ClientOf(inv);
    assert c.totalTokens == 0;
    assert Execute(inv, w0) == Run(s, Machine(CheckClean, c), w0, []) by {
      assert ParseArgs(inv.args) == Proceed(Flags(true, false, false));
    }
    EmptyDiffIsNoDiff();
    SpinRound(s, c, "", ok, "", wa, []);
    assert w0 == wa.(git := [ok, ok, ok] + wa.git);
    var t3 := [Status(0), Diff(ok), Add(0)];
    assert [] + t3 == t3;
    var o := AutoCommitTail(s, c, t3);
    assert Execute(inv, w0) == o;
  }

  /** The second round of `AutoCommitScenario`, from the dirty check on. */
  lemma AutoCommitTail(s: Settings, c: Client, t: seq<Event>) returns (o: Outcome)
    requires s.flags.autoCommit && !s.flags.autoPush
    ensures o == Run(s, Machine(CheckClean, c),
      World([GitResult(0, ""), GitResult(0, "+x"), GitResult(0, "")], [], [Body(Some(5), "\"feat(x): add y\"")]), t)
    ensures && o.exit == Some(0)
      && |o.trace| == |t| + 4
      && o.trace[..|t| + 2] == t + [Status(0), Diff(GitResult(0, "+x"))]
      && o.trace[|t| + 2].Chat?
      && o.trace[|t| + 3] == Commit("feat(x): add y", 0)
      && o.totalTokens == c.totalTokens + 5
  {
    var reply := Body(Some(5), "\"feat(x): add y\"");
    var w := World([GitResult(0, "")], [], [reply]);
    var t2 := t + [Status(0), Diff(GitResult(0, "+x"))];
    StatusThenDiff(s, c, w, t);
    o := GenerateThenCommit(s, c, t2);
    assert o.trace[..|t| + 2] == t2;
  }

  /** A dirty tree with the staged diff `+x` leads to the completion request. */
  lemma StatusThenDiff(s: Settings, c: Client, w: World, t: seq<Event>)
    ensures Run(s, Machine(CheckClean, c), w.(git := [GitResult(0, ""), GitResult(0, "+x")] + w.git), t)
      == Run(s, Machine(Generating("+x"), c), w, t + [Status(0), Diff(GitResult(0, "+x"))])
  {
    var d := GitResult(0, "+x");
    var w1 := w.(git := [d] + w.git);
    SpinStatus(s, c, "", w1, t);
    assert w1.(git := [GitResult(0, "")] + w1.git) == w.(git := [GitResult(0, ""), d] + w.git);
    PlusXIsDiff();
    AfterStatus(s, c, d, w, t + [Status(0)]);
    assert t + [Status(0)] + [Diff(d)] == t + [Status(0), Diff(d)];
  }

  /** The staged diff `+x` has nothing to strip, so it is described as it stands. */
  lemma PlusXIsDiff()
    ensures DiffText(GitResult(0, "+x")) == Some("+x")
  {
    StripKeepsTrimmed("+x", Whitespace);
  }

  /** The completion and the commit: the run exits 0 with the cleaned message committed. */
  lemma GenerateThenCommit(s: Settings, c: Client, t: seq<Event>) returns (o: Outcome)
    requires s.flags.autoCommit && !s.flags.autoPush
    ensures o == Run(s, Machine(Generating("+x"), c), World([GitResult(0, "")], [], [Body(Some(5), "\"feat(x): add y\"")]), t)
    ensures && o.exit == Some(0)
      && |o.trace| == |t| + 2
      && o.trace[..|t|] == t
      && o.trace[|t|].Chat?
      && o.trace[|t| + 1] == Commit("feat(x): add y", 0)
      && o.totalTokens == c.totalTokens + 5
  {
    var reply := Body(Some(5), "\"feat(x): add y\"");
    var ok := GitResult(0, "");
    var w := World([ok], [], []);
    CleanAnswerUnquotes();
    var done := GenerateAuto(s, c, "+x", reply, w, t);
    assert w.(http := [reply] + w.http) == World([ok], [], [reply]);
    var t1 := t + [Chat(done.sent, reply)];
    CommitFinal(s, done.client, World([], [], []), t1, "feat(x): add y", "");
    assert World([], [], []).(git := [ok] + []) == w;
    o := Outcome(Some(0), t1 + [Commit("feat(x): add y", 0)], done.client.totalTokens);
    assert Run(s, Machine(Exited(0), done.client), World([], [], []), t1 + [Commit("feat(x): add y", 0)]) == o;
    assert o.trace[..|t|] == t;
  }

  /** The diff step: any diff call that yields a non-empty stripped diff leads to the
      completion request for that diff. */
  lemma AfterStatus(s: Settings, c: Client, g: GitResult, w: World, t: seq<Event>)
    requires HasDiff(g)
    ensures Run(s, Machine(FetchDiff, c), w.(git := [g] + w.git), t)
      == Run(s, Machine(Generating(DiffText(g).value), c), w, t + [Diff(g)])
  {
    var w0 := w.(git := [g] + w.git);
    assert w0.git[1..] == w.git;
    RunUnfold(s, Machine(FetchDiff, c), w0, t);
  }

  /** The completion step with `-a`: any reply whose cleaned answer is non-empty goes
      straight to a commit of exactly that answer, with the reply's usage counted. */
  lemma GenerateAuto(s: Settings, c: Client, diff: string, reply: Reply, w: World, t: seq<Event>)
    returns (done: Completion)
    requires s.flags.autoCommit
    ensures done == ChatComplete(c, Conversation(s, diff), reply)
    ensures done.answer.Some? && done.answer.value != "" ==>
      Run(s, Machine(Generating(diff), c), w.(http := [reply] + w.http), t)
        == Run(s, Machine(Committing(done.answer.value), done.client), w, t + [Chat(done.sent, reply)])
  {
    done := ChatComplete(c, Conversation(s, diff), reply);
    var w0 := w.(http := [reply] + w.http);
    assert w0.http[1..] == w.http;
    RunUnfold(s, Machine(Generating(diff), c), w0, t);
  }

  /** The commit step without `-p`: a successful commit ends the run with 0, whatever
      git prints. */
  lemma CommitFinal(s: Settings, c: Client, w: World, t: seq<Event>, message: string, out: string)
    requires !s.flags.autoPush
    ensures Run(s, Machine(Committing(message), c), w.(git := [GitResult(0, out)] + w.git), t)
      == Run(s, Machine(Exited(0), c), w, t + [Commit(message, 0)])
  {
    var w0 := w.(git := [GitResult(0, out)] + w.git);
    assert w0.git[1..] == w.git;
    RunUnfold(s, Machine(Committing(message), c), w0, t);
  }

  /** The commit step with `-p`: a successful commit is followed by exactly one
      `git push`, and the run exits 1 when the push fails and 0 when it succeeds. */
  lemma CommitThenPush(s: Settings, c: Client, w: World, t: seq<Event>, message: string,
                       out: string, code: int, pushOut: string)
    requires s.flags.autoPush
    ensures Run(s, Machine(Committing(message), c),
                w.(git := [GitResult(0, out), GitResult(code, pushOut)] + w.git), t)
      == Outcome(Some(if code != 0 then 1 else 0), t + [Commit(message, 0), Push(code)], c.totalTokens)
  {
    var w0 := w.(git := [GitResult(0, out), GitResult(code, pushOut)] + w.git);
    var w1 := w.(git := [GitResult(code, pushOut)] + w.git);
    assert w0.git[1..] == w1.git;
    assert w1.git[1..] == w.git;
    RunUnfold(s, Machine(Committing(message), c), w0, t);
    RunUnfold(s, Machine(Pushing, c), w1, t + [Commit(message, 0)]);
    assert t + [Commit(message, 0)] + [Push(code)] == t + [Commit(message, 0), Push(code)];
  }

  /** Without `-a`, a diff call that gave nothing (failed or empty) leads to the
      staging prompt. */
  lemma DiffThenAsk(s: Settings, c: Client, d: GitResult, w: World, t: seq<Event>)
    requires !s.flags.autoCommit && !HasDiff(d)
    ensures Run(s, Machine(FetchDiff, c), w.(git := [d] + w.git), t)
      == Run(s, Machine(AskStage, c), w, t + [Diff(d)])
  {
    var w0 := w.(git := [d] + w.git);
    assert w0.git[1..] == w.git;
    RunUnfold(s, Machine(FetchDiff, c), w0, t);
  }

  /** A "y" to the staging prompt leads to `git add -A`. */
  lemma StageAccepted(s: Settings, c: Client, a: Option<string>, w: World, t: seq<Event>)
    requires Agrees(a)
    ensures Run(s, Machine(AskStage, c), w.(input := [a] + w.input), t)
      == Run(s, Machine(Staging, c), w, t + [Ask(StagePrompt, a)])
  {
    var w0 := w.(input := [a] + w.input);
    assert w0.input[1..] == w.input;
    RunUnfold(s, Machine(AskStage, c), w0, t);
  }

  /** The completion step without `-a`: any reply whose cleaned answer is non-empty
      leads to the accept prompt for exactly that answer, with the reply's usage
      counted. */
  lemma GenerateInteractive(s: Settings, c: Client, diff: string, reply: Reply, w: World, t: seq<Event>)
    returns (done: Completion)
    requires !s.flags.autoCommit
    ensures done == ChatComplete(c, Conversation(s, diff), reply)
    ensures done.answer.Some? && done.answer.value != "" ==>
      Run(s, Machine(Generating(diff), c), w.(http := [reply] + w.http), t)
        == Run(s, Machine(Confirming(done.answer.value), done.client), w, t + [Chat(done.sent, reply)])
  {
    done := ChatComplete(c, Conversation(s, diff), reply);
    var w0 := w.(http := [reply] + w.http);
    assert w0.http[1..] == w.http;
    RunUnfold(s, Machine(Generating(diff), c), w0, t);
  }

  /** A "y" to the accept prompt leads to a commit of exactly the proposed message. */
  lemma AcceptThenCommit(s: Settings, c: Client, message: string, a: Option<string>, w: World, t: seq<Event>)
    requires Agrees(a)
    ensures Run(s, Machine(Confirming(message), c), w.(input := [a] + w.input), t)
      == Run(s, Machine(Committing(message), c), w, t + [Ask(AcceptPrompt, a)])
  {
    var w0 := w.(input := [a] + w.input);
    assert w0.input[1..] == w.input;
    RunUnfold(s, Machine(Confirming(message), c), w0, t);
  }
}

=== FILE: wrappers.dfy ===
/** The optional value used wherever the source returns `None` or a value. */
module Wrappers {

  datatype Option<+T> = None | Some(value: T) {

    /** The carried value, or `default` when there is none (Python's `dict.get(k, default)`). */
    function GetOr(default: T): T {
      match this
      case Some(v) => v
      case None => default
    }
  }
}
